=== FILE: README.md ===
# ecosystem_sim in Dafny

A functional model of the core of `ecosystem_sim`, a grid-based ecosystem
simulator. It covers:

- the world: a grid of soil and water cells with an hour/day clock and a
  central lake carved in at construction;
- plants: they grow on soil from light and water, lose health on bad
  ground, and reproduce onto neighbouring soil;
- the simulation: one tick is a fixed pipeline, run in this order:
  1. advance the clock and relight the grid;
  2. run the water cycle;
  3. grow and reproduce every plant;
  4. return the resources of the dead;
  5. append the offspring;
  6. settle the atmosphere.

Modules, one per source file plus two:

- `Common`: an option type, min/max, the random-draw stream and `RandInt`.
- `Grid` (`world.py`): the world, lookup, lighting and the clock.
- `Plants` (`plant.py`): plant state, growth and reproduction, including
  the neighbour scan, which is modelled both as written and as intended
  (see Findings).
- `Simulation` (`simulation.py`), which covers:
  - seeding;
  - the water cycle;
  - the plant pass;
  - removal of the dead;
  - the atmosphere;
  - the tick;
  - statistics.
- `Invariants`: the state invariant `Valid`. It holds of every new
  simulation and is preserved by every tick, so it holds after any number
  of ticks (`Run`, the loop of `main.py`).

Two things the source computes internally are parameters here:

- **Randomness.** Every random draw (`random.random()`, `random.randint`)
  is read from a stream `draws: nat -> real` at a cursor `k`. Each
  operation returns the cursor after its last draw. The draws are consumed
  in exactly the source's order, including its short-circuit guards: a
  rain draw happens only when the night-or-humid guard passes, and a seed
  coin only at an in-bounds soil neighbour.
- **Daylight.** The light for hour `h` is `sun(h)`, for any curve `sun`
  satisfying `Daylight`: a level in [0, 1] for every hour, and 0 at
  midnight. `Daylight` keeps only these two facts of the source's
  `max(0, sin(2*pi*h/24))`. It also admits curves the sine rules out, for
  instance positive light at hours 13 to 23, so every property proved for
  all admissible curves holds in particular for the sine.

Numbers are exact reals, with no floating-point rounding.

## Model

| member | source | states |
|---|---|---|
| Common.RandInt | ecosystem_sim/simulation.py:47-48 | a draw mapped to `randint(lo, hi)` lies in `lo..hi` |
| Common.RandIntCovers | ecosystem_sim/simulation.py:47-48 | every value of `lo..hi` is produced by some draw |
| Grid.NewWorld | ecosystem_sim/world.py:17-48 | a new world has the given size and clock 0; each cell is the default soil cell (water 0.7, light 0, resources 1.0) or, inside the lake disc, a lake cell; a world with a side below 8 has no lake, and otherwise the centre is water |
| Grid.AddWaterBodies | ecosystem_sim/world.py:50-62 | exactly the cells strictly inside the disc of radius `min(w, h) // 8` around the centre become water at level 1.0; all other cells are unchanged |
| Grid.LakeRadius | ecosystem_sim/world.py:55 | the radius is the shorter side floored-divided by 8, and it is positive exactly when both sides are at least 8 |
| Grid.GetCell | ecosystem_sim/world.py:79-92 | a cell is returned exactly for in-bounds coordinates, and it is the grid's cell there; otherwise nothing is returned |
| Grid.SetCell | ecosystem_sim/plant.py:66-67 | writing one cell changes that cell and nothing else |
| Grid.UpdateLighting | ecosystem_sim/world.py:64-77 | every cell gets the same light level; kind, water and resources are untouched |
| Grid.AdvanceTime | ecosystem_sim/world.py:94-105 | time grows by one; the hour becomes `(hour + 1) % 24`; the day advances exactly when the hour wraps to 0; every cell is lit for the new hour; water and resources are untouched |
| Grid.AdvanceKeepsClock | ecosystem_sim/world.py:99-102 | one tick keeps `time = 24 * day + hour` with `hour < 24` |
| Grid.AdvanceAll | ecosystem_sim/world.py:94-105 | `n` ticks keep the layout and add `n` to the time |
| Grid.AdvanceAllKeepsClock | ecosystem_sim/world.py:99-102 | the clock relation survives any number of ticks |
| Grid.ClockFromFresh | ecosystem_sim/world.py:27-29 | `n` ticks after construction the hour is `n % 24` and the day is `n / 24` |
| Grid.ClockReadsTime | ecosystem_sim/world.py:99-102 | a consistent clock's hour and day are `time % 24` and `time / 24` |
| Plants.NewPlant | ecosystem_sim/plant.py:17-33 | a new plant stands at the given cell with age 0, health 100, size 0.1 and zero gas counters |
| Plants.Grow | ecosystem_sim/plant.py:35-77 | off-grid or on water, the plant loses 10 health and nothing else changes. On soil with a positive growth factor `g`, it ages, its size becomes `min(size + g * 0.1, 1)`, counts `g` of each gas, and its cell loses `g * 0.05` water, floored at 0. With `g = 0` it loses 2 health and nothing else changes. Past age 100 it loses 0.5 more. Health never rises. The result is "alive" iff health > 0 |
| Plants.Scan | ecosystem_sim/plant.py:98-111 | the chosen spot (intended scan) is an in-bounds soil cell among the eight neighbours, never the plant's own cell; at most one draw is read per remaining offset |
| Plants.FirstCoin | ecosystem_sim/plant.py:108 | the index of the first of `n` coins below 0.3, with all earlier coins failing, or `n` if none succeeds |
| Plants.ScanPicksFirst | ecosystem_sim/plant.py:98-111 | the intended scan agrees with the reference `SpotRef` over all eight offsets: it picks the first in-bounds soil neighbour, in dx-outer/dy-inner order, whose coin succeeds, and reads exactly one coin per soil neighbour up to and including that one |
| Plants.Reproduce | ecosystem_sim/plant.py:79-115 | an ineligible plant (age < 30 or size < 0.3) gets nothing and reads no draw; a failed reproduction draw gives nothing; any offspring is single, fresh, on in-bounds soil, and next to but not on the parent |
| Plants.ReproducePlacesAtFirst | ecosystem_sim/plant.py:93-111 | after a successful reproduction draw, the offspring stands at the first soil neighbour whose coin succeeds, and there is none if no coin succeeds |
| Plants.ScanAsWritten | ecosystem_sim/plant.py:98-111 | the scan as written: at most one seed per remaining column, the seeds in strictly increasing columns; every seed is fresh, on in-bounds soil, and next to the parent |
| Plants.ReproduceAsWritten | ecosystem_sim/plant.py:79-115 | `reproduce` as written: the same gate and draw as `Reproduce`, but up to three seeds; after a successful reproduction draw the result is exactly the as-written scan from the first offset, starting at the next draw |
| Plants.ScanAsWrittenColumn | ecosystem_sim/plant.py:98-111 | within each `dx` column the scan as written agrees with the reference `SpotRef` over that column's offsets: its seed is the column's first soil neighbour whose coin succeeds, it reads one coin per soil neighbour up to that one (or per soil neighbour of the column when none succeeds), and the scan then goes on with the next column from that cursor |
| Plants.ColumnSeeds | ecosystem_sim/plant.py:98-111 | the offspring of the scan from a column's first offset are that column's seed, if any, followed by the offspring of the scan from the next column, and the draws end where that scan's do |
| Plants.ScanAsWrittenByColumns | ecosystem_sim/plant.py:98-111 | the whole scan as written yields the seeds of the columns dx = -1, 0, 1 in that order, each column scanned with the cursor the previous one left, and stops reading where the last column does |
| Plants.ScanAsWrittenStartsLikeScan | ecosystem_sim/plant.py:98-111 | the written and the intended scan agree on whether any seed is placed and on where the first one goes |
| Plants.ThreeSeedsAsWritten | ecosystem_sim/plant.py:98-111 | a concrete case (a 3 x 3 soil patch, every draw 0) where the code places three seeds and the intended scan places one |
| Simulation.FindSoil | ecosystem_sim/simulation.py:46-53 | at most `tries` attempts of two draws each; a found spot is an in-bounds soil cell |
| Simulation.SeedPlants | ecosystem_sim/simulation.py:44-53 | at most `n` plants are seeded, each fresh and on soil |
| Simulation.SeedPlantsFillsAllSoil | ecosystem_sim/simulation.py:44-53 | on an all-soil world every round places a plant |
| Simulation.NewSim | ecosystem_sim/simulation.py:17-35 | a new simulation has a new world, CO2 and O2 at 100, no atmospheric water, and at most 20 fresh plants, all on soil |
| Simulation.SmallWorldSeedsAll | ecosystem_sim/simulation.py:44-53 | a world with a side below 8 has no lake, so all 20 plants are seeded |
| Simulation.CycleCell | ecosystem_sim/simulation.py:104-122 | only soil water changes. A lake cell reads no draw and never lowers the air pool. A soil cell reads at most one draw. Moisture stays in [0, 1] and the pool stays non-negative. Soil never creates water: cell water plus pool never grows. A lake cell feeds 0.01 into the air in strong daylight (light > 0.5). A soil cell in very strong daylight (light > 0.7) evaporates `e = min(0.01, water * 0.05)` into the air. It then reads a rain draw exactly when it is night or the air holds more than 2.0. Without rain, water and air move by `e` alone. With a draw below 0.05 it rains `min(0.2, air * 0.5)` from the air, the cell capped at 1 and the air floored at 0 |
| Simulation.CycleRow | ecosystem_sim/simulation.py:103-122 | over one row, only soil water changes, and moisture and pool bounds are kept |
| Simulation.CycleRowFollowsTrace | ecosystem_sim/simulation.py:103-122 | along a row, cell `x` takes exactly one `CycleCell` step with the pool and cursor the cells left of it left (`RowTrace`), and the row hands on the pool and cursor of its last step |
| Simulation.CycleRows | ecosystem_sim/simulation.py:102-122 | over all rows, the grid keeps its shape, only soil water changes, and the bounds are kept |
| Simulation.CycleRowsFollowsTrace | ecosystem_sim/simulation.py:102-122 | down the grid, row `y` is cycled by `CycleRow` with the pool and cursor the rows above it left (`GridTrace`), and the grid hands on those of its last row |
| Simulation.WaterCycle | ecosystem_sim/simulation.py:96-122 | one water cycle changes only soil moisture; moisture in [0, 1] and a non-negative pool are preserved |
| Simulation.WaterCycleRowMajor | ecosystem_sim/simulation.py:96-122 | the water cycle visits the cells in row-major order: the cell at `(x, y)` becomes the result of one `CycleCell` step, for the daytime flag of the current hour, with the pool and cursor left by all rows above and all cells to its left; the pass ends with the pool and cursor of the last step |
| Simulation.PlantTurn | ecosystem_sim/simulation.py:71-78 | the plant, whether it lives and the world are exactly those `Grow` leaves; a plant that dies in growth reads no draw and has no offspring; a living one's offspring and cursor are exactly those of `ReproduceAsWritten` on the world its growth left, at most three, each fresh, on soil and adjacent; only soil water changes |
| Simulation.PlantPass | ecosystem_sim/simulation.py:67-78 | every plant ends up either surviving or dead; there are at most three offspring per survivor; only soil water changes |
| Simulation.TurnsChain | ecosystem_sim/simulation.py:70-78 | the first plant takes its `PlantTurn` on the world and cursor the pass starts with, and plant `i` on the world and cursor plant `i - 1`'s turn left |
| Simulation.PlantPassFollowsTurns | ecosystem_sim/simulation.py:67-78 | the pass is its turns taken in order: survivors are the plants of the living turns, the dead those of the others, the offspring those of every turn, in order, and the pass leaves the world and cursor of the last turn |
| Simulation.PlantPassSortsByHealth | ecosystem_sim/simulation.py:70-74 | every survivor has health > 0 and every removed plant has health <= 0 |
| Simulation.PlantPassOffspringFresh | ecosystem_sim/simulation.py:76-78 | every offspring is fresh and on soil |
| Simulation.PlantPassKeepsSoilWater | ecosystem_sim/simulation.py:70-78 | soil moisture stays in [0, 1] through the pass |
| Simulation.PlantPassKeepsPlants | ecosystem_sim/simulation.py:70-78 | sizes stay in [0.1, 1], and survivors stay on soil |
| Simulation.PlantPassKeepsPositions | ecosystem_sim/simulation.py:70-74 | the positions of survivors and dead together are exactly the input's, as a multiset: no plant moves, appears or vanishes |
| Simulation.PlantPassKeepsOrder | ecosystem_sim/simulation.py:70-82 | the survivors keep the input's order |
| Simulation.PlantPassOffspringNearParent | ecosystem_sim/simulation.py:76-78 | every offspring stands next to some survivor |
| Simulation.OnSoilAcross | ecosystem_sim/plant.py:46 | standing on soil depends only on the layout |
| Simulation.DepositNonNegative | ecosystem_sim/simulation.py:84-88 | dead plants of non-negative size never lower a cell's resources |
| Simulation.DepositElsewhere | ecosystem_sim/simulation.py:84-88 | a cell where no dead plant stands receives nothing |
| Simulation.DepositAppend | ecosystem_sim/simulation.py:81-88 | each dead plant contributes independently |
| Simulation.DepositSingle | ecosystem_sim/simulation.py:84-88 | one dead plant returns half its size to its own cell and nothing elsewhere |
| Simulation.ReturnOne | ecosystem_sim/simulation.py:85-88 | one dead plant raises the resources of its own cell by half its size, if that cell is on the grid; every other cell is unchanged |
| Simulation.ReturnResources | ecosystem_sim/simulation.py:80-88 | each cell's resources grow by half the total size of the dead standing on it; nothing else changes |
| Simulation.SumsAppend | ecosystem_sim/simulation.py:127-128 | the gas totals over two lists add up |
| Simulation.SumsOfFresh | ecosystem_sim/simulation.py:127-128 | fresh plants contribute nothing to the gas totals |
| Simulation.ResetCounters | ecosystem_sim/simulation.py:130-133 | every plant's gas counters become 0; nothing else about it changes |
| Simulation.UpdateAtmosphere | ecosystem_sim/simulation.py:124-137 | CO2 and O2 end at least 50. Above the floor, CO2 falls by the total absorbed and rises by 0.1, and O2 rises by the total produced and falls by 0.1. Counters are cleared. The world and the water pool are unchanged |
| Simulation.AtmosphereAfterPass | ecosystem_sim/simulation.py:127-137 | over survivors followed by offspring, only the survivors' exchange moves the gas levels, and the offspring stay fresh |
| Simulation.Update | ecosystem_sim/simulation.py:55-94 | one tick keeps the layout and adds one hour. No plant that died is left. Every counter is cleared. Gas levels stay at least 50. The list grows at most fourfold, since each survivor adds at most three seeds |
| Simulation.UpdateReturnsResources | ecosystem_sim/simulation.py:55-88 | over a whole tick the resources of each cell grow by exactly half the size of each plant that died on it this tick (`Deposit`), and change in no other way |
| Simulation.UpdateListsSurvivorsThenOffspring | ecosystem_sim/simulation.py:80-91 | the new plant list is the survivors, in their original order with counters cleared, followed by the offspring, which have not grown |
| Simulation.GetStats | ecosystem_sim/simulation.py:139-153 | the statistics report the clock, the plant count and the atmosphere |
| Simulation.NewSimStats | ecosystem_sim/simulation.py:17-35 | right after construction: day 0, hour 0, at most 20 plants, CO2 and O2 at 100, no water in the atmosphere |
| Invariants.NewWorldCellsOk | ecosystem_sim/world.py:31-48 | every new cell is unlit, has moisture in range, has full lake water where it is water, and has resources of at least 1 |
| Invariants.NewSimValid | ecosystem_sim/simulation.py:17-35 | a new simulation satisfies the invariant |
| Invariants.AdvanceKeepsCells | ecosystem_sim/world.py:94-105 | advancing the clock relights every cell for the new hour and keeps the rest of the cell invariant |
| Invariants.ReturnKeepsCells | ecosystem_sim/simulation.py:84-88 | returning resources of dead plants keeps the cell invariant |
| Invariants.NextPlantsOk | ecosystem_sim/simulation.py:90-94 | the survivors followed by fresh offspring, with counters cleared, are all live plants on soil of good size |
| Invariants.UpdatePreservesValid | ecosystem_sim/simulation.py:55-94 | every tick preserves the invariant: consistent clock, cells lit for the hour, moisture in range, lake cells full, resources at least 1, live plants on soil with sizes in [0.1, 1], gas levels at least 50, non-negative water pool |
| Invariants.Run | ecosystem_sim/main.py:33-37 | `n` ticks keep the layout, add `n` hours and preserve the invariant |
| Invariants.FreshRunValid | ecosystem_sim/main.py:23-37 | after any number `n` of ticks from construction the invariant holds, the hour is `n % 24` and the day is `n / 24` |
| Invariants.FreshRunStats | ecosystem_sim/main.py:23-37 | after `n` ticks from construction, the statistics read day `n / 24` and hour `n % 24`, gas levels at least 50 and non-negative atmospheric water |

## Findings

| source | as written | input that shows it | evidently intended | confidence | as-written member | corrected member |
|---|---|---|---|---|---|---|
| ecosystem_sim/plant.py:98-111 | after a successful seed coin, `break` leaves only the inner `dy` loop, so the scan goes on with the next `dx` column; one call can place up to three seeds | a plant of age 30, size 0.3 and health 100 at (1, 1) of a 3 x 3 all-soil world, every draw 0: seeds at (0, 0), (1, 0) and (2, 0) | at most one seed per reproduction event, as the comment on line 111 says | high; not executed | Plants.ThreeSeedsAsWritten | Plants.ReproducePlacesAtFirst |

The tick (`PlantTurn`, `PlantPass`, `Update`) runs `ReproduceAsWritten`,
the code's behaviour, so its bounds allow three seeds per plant and its
draws are read where the code reads them. `Reproduce` and
`ReproducePlacesAtFirst` state the intended one-seed behaviour. `Plants.ScanAsWrittenStartsLikeScan` shows
that the two scans agree up to the first seed. Both scans are pinned
against one reference definition, `SpotRef` (the first soil neighbour
whose coin succeeds over a range of offsets): the intended scan over all
eight offsets (`Plants.ScanPicksFirst`), the written one column by column
(`Plants.ScanAsWrittenColumn`, `Plants.ScanAsWrittenByColumns`).

## Left out

- Visualisation and the command-line driver (`visualization.py`, and
  `main.py`'s argument parsing, printing and sleeping) are not modelled.
  The driver's loop of `update` calls is modelled by `Invariants.Run`; its
  stopping test on the day count is not.
- Grid.AdvanceTime: the light of hour `h` is `sun(h)` for an abstract
  daylight curve, not `max(0, sin(2*pi*h/24))`. Reals have no sine; the
  curve keeps the range [0, 1] and the zero at midnight.
- Common.RandInt: `random.randint` is modelled by one draw mapped onto the
  range. Python's generator itself, and the fact that `randint` may use
  more than one internal draw, are not modelled: the model only fixes the
  order in which the simulation's decisions read the stream.
- Floating-point rounding is not modelled; all quantities are exact reals.
- The cells' `temperature` entry (always 20.0, never read) is not carried.
- The atmospheric water entry is absent until first written and reads as 0
  whenever absent; the model starts it at 0, which every read agrees with.
- Removing a dead plant uses `list.remove`, which matches by identity; the
  model keeps the survivors directly, which gives the same list because
  each plant object occurs once.
- Simulation.NewSim requires both sides to be at least 1. `randint(0, -1)`
  raises during seeding, so a zero-sized simulation cannot be built.
- The constructors' default sizes (50 x 50; 40 x 20 in the driver) are
  ordinary arguments of `NewSim` and are not singled out.
- Simulation.PlantPassKeepsOrder: states the survivors' order by their
  positions, because plants carry no identity to compare. Two plants on
  the same cell are not told apart.
- Nothing prevents two plants from sharing a cell; the source does not
  check occupancy, and neither does the model.

=== FILE: common.dfy ===
/** Small shared vocabulary: an optional value, min/max on reals, and the
    stream of pseudo-random draws that every stochastic decision consumes. */
module Common {

  /** An absent or present value; `None` plays the role of the source's `None`. */
  datatype Option<T> = None | Some(value: T)

  function Min(a: real, b: real): (r: real)
    ensures r <= a && r <= b
    ensures r == a || r == b
  {
    if b < a then b else a
  }

  function Max(a: real, b: real): (r: real)
    ensures r >= a && r >= b
    ensures r == a || r == b
  {
    if b > a then b else a
  }

  /** The successive values returned by the one shared pseudo-random
      generator. A draw is consumed by reading `draws(k)` and moving the
      cursor to `k + 1`. No property below depends on the values, so every
      stream is allowed, not only values in [0, 1). */
  type Draws = nat -> real

  /** An integer drawn uniformly from `lo..hi` (both inclusive), obtained
      from one draw `u`; out-of-range draws are clamped to the ends. */
  function RandInt(lo: int, hi: int, u: real): (r: int)
    requires lo <= hi
    ensures lo <= r <= hi
  {
    var n := hi - lo + 1;
    var i := (u * n as real).Floor;
    lo + (if i < 0 then 0 else if i >= n then n - 1 else i)
  }

  /** Every integer of the range is produced by some draw. */
  lemma RandIntCovers(lo: int, hi: int, v: int)
    requires lo <= v <= hi
    ensures RandInt(lo, hi, (v - lo) as real / (hi - lo + 1) as real) == v
  {
    var n := hi - lo + 1;
    var u := (v - lo) as real / n as real;
    assert u * n as real == (v - lo) as real;
  }
}

=== FILE: invariants.dfy ===
/** The state invariant of a running simulation: it holds of every new
    simulation and every tick preserves it, so it holds after any number
    of ticks. */
module Invariants {
  import opened Common
  import opened Grid
  import opened Plants
  import opened Simulation

  /** A cell lit at `level`, with moisture in range, a full lake cell, and
      at least the initial resources. */
  predicate CellOk(c: Cell, level: real)
  {
    && c.light == level
    && SoilWaterOk(c)
    && (c.kind == Water ==> c.water == 1.0)
    && c.resources >= 1.0
  }

  predicate CellsOk(w: World, level: real)
    requires Shaped(w)
  {
    forall y, x :: 0 <= y < w.height && 0 <= x < w.width ==> CellOk(w.grid[y][x], level)
  }

  /** A live plant on soil, of size in [0.1, 1], whose gas counters were
      cleared by the last atmosphere pass. */
  predicate PlantOk(w: World, p: Plant)
    requires Shaped(w)
  {
    && OnSoil(w, p)
    && p.health > 0.0
    && 0.1 <= p.size <= 1.0
    && p.co2Absorbed == 0.0 && p.o2Produced == 0.0
  }

  predicate PlantsOk(w: World, ps: seq<Plant>)
    requires Shaped(w)
  {
    forall i :: 0 <= i < |ps| ==> PlantOk(w, ps[i])
  }

  /** A well-shaped world with a consistent clock whose cells are lit for
      the current hour. */
  predicate WorldOk(w: World, sun: nat -> real)
  {
    Shaped(w) && ClockConsistent(w) && CellsOk(w, sun(w.hour))
  }

  /** No negative atmospheric water; CO2 and O2 at or above their floor. */
  predicate AtmosphereOk(s: Sim)
  {
    s.airWater >= 0.0 && s.co2 >= 50.0 && s.o2 >= 50.0
  }

  /** The simulation invariant under daylight curve `sun`. */
  predicate Valid(s: Sim, sun: nat -> real)
  {
    WorldOk(s.world, sun) && AtmosphereOk(s) && PlantsOk(s.world, s.plants)
  }

  // ---------------------------------------------------------------------
  // Construction
  // ---------------------------------------------------------------------

  lemma NewWorldCellsOk(width: nat, height: nat, sun: nat -> real)
    requires Daylight(sun)
    ensures CellsOk(NewWorld(width, height), sun(0))
  {
    var w := NewWorld(width, height);
    forall y, x | 0 <= y < height && 0 <= x < width
      ensures CellOk(w.grid[y][x], sun(0))
    {
      assert w.grid[y][x] == LakeCell || w.grid[y][x] == DefaultCell;
    }
  }

  /** A new simulation satisfies the invariant. */
  lemma NewSimValid(width: nat, height: nat, sun: nat -> real, draws: Draws, k: nat)
    requires width >= 1 && height >= 1
    requires Daylight(sun)
    ensures Valid(NewSim(width, height, draws, k).sim, sun)
  {
    var s := NewSim(width, height, draws, k).sim;
    NewWorldCellsOk(width, height, sun);
    forall i | 0 <= i < |s.plants|
      ensures PlantOk(s.world, s.plants[i])
    {
      assert s.plants[i] in s.plants;
    }
  }

  // ---------------------------------------------------------------------
  // One tick, stage by stage
  // ---------------------------------------------------------------------

  /** Advancing the clock relights every cell for the new hour and keeps
      everything else the invariant speaks of. */
  lemma AdvanceKeepsCells(w: World, sun: nat -> real)
    requires Shaped(w) && Daylight(sun)
    requires CellsOk(w, sun(w.hour))
    ensures CellsOk(AdvanceTime(w, sun), sun(AdvanceTime(w, sun).hour))
  {
    var w' := AdvanceTime(w, sun);
    forall y, x | 0 <= y < w.height && 0 <= x < w.width
      ensures CellOk(w'.grid[y][x], sun(w'.hour))
    {
      assert CellOk(w.grid[y][x], sun(w.hour));
    }
  }

  /** A world changed only in soil moisture, with moisture still in
      range, still satisfies the cell part of the invariant. */
  lemma SoilWaterKeepsCells(w: World, w': World, level: real)
    requires OnlySoilWaterChanged(w, w')
    requires CellsOk(w, level) && SoilWaterBounded(w')
    ensures CellsOk(w', level)
  {
    forall y, x | 0 <= y < w'.height && 0 <= x < w'.width
      ensures CellOk(w'.grid[y][x], level)
    {
      assert CellOk(w.grid[y][x], level);
      assert SoilWaterOnly(w.grid[y][x], w'.grid[y][x]);
      assert SoilWaterOk(w'.grid[y][x]);
    }
  }

  lemma CellsOkBounded(w: World, level: real)
    requires Shaped(w) && CellsOk(w, level)
    ensures SoilWaterBounded(w)
  {
    forall y, x | 0 <= y < w.height && 0 <= x < w.width
      ensures SoilWaterOk(w.grid[y][x])
    {
      assert CellOk(w.grid[y][x], level);
    }
  }

  /** Returning the resources of plants of non-negative size keeps the
      cell part of the invariant. */
  lemma ReturnKeepsCells(w: World, dead: seq<Plant>, level: real)
    requires Shaped(w) && CellsOk(w, level)
    requires AllSized(dead)
    ensures CellsOk(ReturnResources(w, dead), level)
  {
    var w' := ReturnResources(w, dead);
    forall y, x | 0 <= y < w.height && 0 <= x < w.width
      ensures CellOk(w'.grid[y][x], level)
    {
      assert CellOk(w.grid[y][x], level);
      DepositNonNegative(dead, x, y);
    }
  }

  /** The plants of the invariant, split into their parts. */
  lemma PlantsOkParts(w: World, ps: seq<Plant>)
    requires Shaped(w) && PlantsOk(w, ps)
    ensures AllSized(ps) && AllOnSoil(w, ps)
  {
    forall i | 0 <= i < |ps|
      ensures 0.1 <= ps[i].size <= 1.0 && OnSoil(w, ps[i])
    {
      assert PlantOk(w, ps[i]);
    }
  }

  /** The plant list after a tick: the survivors in their order, then the
      offspring, all with cleared counters, satisfy the plant part. */
  lemma NextPlantsOk(w: World, survivors: seq<Plant>, offspring: seq<Plant>)
    requires Shaped(w)
    requires AllAlive(survivors) && AllSized(survivors) && AllOnSoil(w, survivors)
    requires AllFreshOnSoil(w, offspring)
    ensures PlantsOk(w, ResetCounters(survivors + offspring))
  {
    var all := survivors + offspring;
    var ps := ResetCounters(all);
    forall i | 0 <= i < |ps|
      ensures PlantOk(w, ps[i])
    {
      if i < |survivors| {
        assert all[i] == survivors[i];
        assert OnSoil(w, survivors[i]);
      } else {
        assert all[i] == offspring[i - |survivors|];
        assert Fresh(offspring[i - |survivors|]) && OnSoil(w, offspring[i - |survivors|]);
      }
    }
  }

  /** The facts about the plant pass that the invariant needs, gathered
      for one pass on a world whose soil moisture is in range. */
  lemma PassFacts(plants: seq<Plant>, w: World, draws: Draws, k: nat)
    requires Shaped(w) && SoilWaterBounded(w)
    requires AllSized(plants) && AllOnSoil(w, plants)
    ensures var r := PlantPass(plants, w, draws, k);
            && SoilWaterBounded(r.world)
            && AllAlive(r.survivors) && AllSized(r.survivors) && AllOnSoil(w, r.survivors)
            && AllSized(r.dead)
            && AllFreshOnSoil(w, r.offspring)
  {
    PlantPassKeepsSoilWater(plants, w, draws, k);
    PlantPassSortsByHealth(plants, w, draws, k);
    PlantPassKeepsPlants(plants, w, draws, k);
    PlantPassOffspringFresh(plants, w, draws, k);
  }

  /** Moving from one world to another of the same layout keeps plants on
      soil, in both the survivor and the offspring form. */
  lemma AcrossLayout(w: World, w': World, survivors: seq<Plant>, offspring: seq<Plant>)
    requires SameLayout(w, w')
    requires AllOnSoil(w, survivors) && AllFreshOnSoil(w, offspring)
    ensures AllOnSoil(w', survivors) && AllFreshOnSoil(w', offspring)
  {
    OnSoilAcross(w, w', survivors);
    forall i | 0 <= i < |offspring|
      ensures OnSoil(w', offspring[i])
    {
      assert OnSoil(w, offspring[i]);
    }
  }

  lemma SameLayoutChain(a: World, b: World, c: World)
    requires SameLayout(a, b) && SameLayout(b, c)
    ensures SameLayout(a, c)
  {
  }

  /** Every tick preserves the invariant. */
  lemma UpdatePreservesValid(s: Sim, sun: nat -> real, draws: Draws, k: nat)
    requires Daylight(sun)
    requires Valid(s, sun)
    ensures Valid(Update(s, sun, draws, k).sim, sun)
  {
    var t := RunStages(s, sun, draws, k);
    var level := sun(t.advanced.hour);
    // clock and light
    AdvanceKeepsClock(s.world, sun);
    AdvanceKeepsCells(s.world, sun);
    PlantsOkParts(s.world, s.plants);
    OnSoilAcross(s.world, t.advanced, s.plants);
    // water cycle
    CellsOkBounded(t.advanced, level);
    SoilWaterKeepsCells(t.advanced, t.cycle.world, level);
    OnSoilAcross(t.advanced, t.cycle.world, s.plants);
    // plants
    PassFacts(s.plants, t.cycle.world, draws, t.cycle.next);
    SoilWaterKeepsCells(t.cycle.world, t.pass.world, level);
    // removal of the dead
    ReturnKeepsCells(t.pass.world, t.pass.dead, level);
    SameLayoutChain(t.cycle.world, t.pass.world, t.returned);
    AcrossLayout(t.cycle.world, t.returned, t.pass.survivors, t.pass.offspring);
    // offspring and atmosphere
    NextPlantsOk(t.returned, t.pass.survivors, t.pass.offspring);
  }

  // ---------------------------------------------------------------------
  // Many ticks
  // ---------------------------------------------------------------------

  /** `n` ticks in a row, each reading its draws after the previous one's.
      The invariant holds after any number of ticks. */
  function Run(s: Sim, sun: nat -> real, n: nat, draws: Draws, k: nat): (r: Step)
    requires Shaped(s.world) && Daylight(sun)
    ensures SameLayout(s.world, r.sim.world)
    ensures r.sim.world.time == s.world.time + n
    ensures r.next >= k
    ensures Valid(s, sun) ==> Valid(r.sim, sun)
    decreases n
  {
    if n == 0 then Step(s, k)
    else
      var prev := Run(s, sun, n - 1, draws, k);
      var last := Update(prev.sim, sun, draws, prev.next);
      SameLayoutChain(s.world, prev.sim.world, last.sim.world);
      if Valid(s, sun) then
        UpdatePreservesValid(prev.sim, sun, draws, prev.next);
        last
      else last
  }

  /** From construction on, after `n` ticks the clock reads hour `n % 24`
      of day `n / 24`, every cell is lit for that hour, every plant is a
      live plant on soil, and CO2 and O2 are at least 50. */
  lemma FreshRunValid(width: nat, height: nat, sun: nat -> real, n: nat, draws: Draws, k: nat)
    requires width >= 1 && height >= 1
    requires Daylight(sun)
    ensures var start := NewSim(width, height, draws, k);
            var r := Run(start.sim, sun, n, draws, start.next).sim;
            && Valid(r, sun)
            && r.world.time == n && r.world.hour == n % 24 && r.world.day == n / 24
  {
    var start := NewSim(width, height, draws, k);
    NewSimValid(width, height, sun, draws, k);
    ClockReadsTime(Run(start.sim, sun, n, draws, start.next).sim.world);
  }

  /** The statistics after `n` ticks from construction: day `n / 24`, hour
      `n % 24`, gas levels at or above 50 and no negative atmospheric water. */
  lemma FreshRunStats(width: nat, height: nat, sun: nat -> real, n: nat, draws: Draws, k: nat)
    requires width >= 1 && height >= 1
    requires Daylight(sun)
    ensures var start := NewSim(width, height, draws, k);
            var st := GetStats(Run(start.sim, sun, n, draws, start.next).sim);
            && st.day == n / 24 && st.hour == n % 24
            && st.co2Level >= 50.0 && st.o2Level >= 50.0 && st.waterInAtmosphere >= 0.0
  {
    FreshRunValid(width, height, sun, n, draws, k);
  }
}

=== FILE: plant.dfy ===
/** A plant: a fixed position, an age in ticks, a health level (dead at
    or below 0), a size in [0, 1], and gas counters accumulated since the
    last atmosphere pass. */
module Plants {
  import opened Common
  import opened Grid

  datatype Plant = Plant(x: int, y: int, age: nat, health: real, size: real,
                         co2Absorbed: real, o2Produced: real)

  /** The state every new plant starts in, at seeding or as an offspring. */
  predicate Fresh(p: Plant)
  {
    p.age == 0 && p.health == 100.0 && p.size == 0.1 && p.co2Absorbed == 0.0 && p.o2Produced == 0.0
  }

  function NewPlant(x: int, y: int): (p: Plant)
    ensures Fresh(p) && p.x == x && p.y == y
  {
    Plant(x, y, 0, 100.0, 0.1, 0.0, 0.0)
  }

  /** Whether the plant stands on an in-bounds soil cell. */
  predicate OnSoil(w: World, p: Plant)
    requires Shaped(w)
  {
    InBounds(w, p.x, p.y) && w.grid[p.y][p.x].kind == Soil
  }

  /** Growth is limited by the scarcer of light and water. */
  function GrowthFactor(c: Cell): real
  {
    Min(c.light, c.water) * 0.2
  }

  /** `w'` equals `w` except possibly for the water level of cell `(x, y)`. */
  predicate OnlyWaterAt(w: World, w': World, x: int, y: int)
  {
    && Shaped(w) && Shaped(w')
    && w'.width == w.width && w'.height == w.height
    && w'.time == w.time && w'.hour == w.hour && w'.day == w.day
    && forall j, i :: 0 <= j < w.height && 0 <= i < w.width ==>
         && w'.grid[j][i].kind == w.grid[j][i].kind
         && w'.grid[j][i].light == w.grid[j][i].light
         && w'.grid[j][i].resources == w.grid[j][i].resources
         && ((i, j) != (x, y) ==> w'.grid[j][i].water == w.grid[j][i].water)
  }

  datatype GrowOut = GrowOut(plant: Plant, world: World, alive: bool)

  /** One tick of growth for `p` on world `w`.
      Off the grid or on water the plant only loses 10 health. On soil with
      positive growth factor `g` it ages one tick, grows by `g * 0.1` capped
      at 1.0, records `g` of CO2 absorbed and O2 produced, and draws
      `g * 0.05` water from its cell (never below 0); with `g == 0` it
      loses 2 health instead. On soil, a plant older than 100 ticks after
      this step loses a further 0.5. The result says whether it is alive. */
  function Grow(p: Plant, w: World): (r: GrowOut)
    requires Shaped(w)
    ensures r.alive <==> r.plant.health > 0.0
    ensures r.plant.x == p.x && r.plant.y == p.y
    // health never recovers
    ensures r.plant.health <= p.health
    ensures OnlyWaterAt(w, r.world, p.x, p.y)
    ensures OnlySoilWaterChanged(w, r.world)
    ensures SoilWaterBounded(w) ==> SoilWaterBounded(r.world)
    // unsuitable ground: only health changes
    ensures !OnSoil(w, p) ==>
              r.plant == p.(health := p.health - 10.0) && r.world == w
    // suitable ground, growing
    ensures OnSoil(w, p) && GrowthFactor(w.grid[p.y][p.x]) > 0.0 ==>
              var g := GrowthFactor(w.grid[p.y][p.x]);
              var c := w.grid[p.y][p.x];
              && r.plant.age == p.age + 1
              && r.plant.size == Min(p.size + g * 0.1, 1.0)
              && (p.size <= 1.0 ==> r.plant.size >= p.size)
              && r.plant.co2Absorbed == p.co2Absorbed + g
              && r.plant.o2Produced == p.o2Produced + g
              && r.world.grid[p.y][p.x].water == Max(0.0, c.water - g * 0.05)
    // suitable ground, not growing: age, size, counters and cell untouched
    ensures OnSoil(w, p) && GrowthFactor(w.grid[p.y][p.x]) <= 0.0 ==>
              && r.plant.age == p.age
              && r.plant.size == p.size
              && r.plant.co2Absorbed == p.co2Absorbed
              && r.plant.o2Produced == p.o2Produced
              && r.world == w
    // health loss on soil: 2 when not growing, plus 0.5 of senescence past age 100
    ensures OnSoil(w, p) ==>
              p.health - r.plant.health ==
                (if GrowthFactor(w.grid[p.y][p.x]) > 0.0 then 0.0 else 2.0)
                + (if r.plant.age > 100 then 0.5 else 0.0)
  {
    match GetCell(w, p.x, p.y)
    case None =>
      var q := p.(health := p.health - 10.0);
      GrowOut(q, w, q.health > 0.0)
    case Some(c) =>
      if c.kind != Soil then
        var q := p.(health := p.health - 10.0);
        GrowOut(q, w, q.health > 0.0)
      else
        var g := GrowthFactor(c);
        var grown :=
          if g > 0.0 then
            p.(age := p.age + 1,
               size := Min(p.size + g * 0.1, 1.0),
               co2Absorbed := p.co2Absorbed + g,
               o2Produced := p.o2Produced + g)
          else p.(health := p.health - 2.0);
        var w' := if g > 0.0 then SetCell(w, p.x, p.y, c.(water := Max(0.0, c.water - g * 0.05)))
                  else w;
        var q := if grown.age > 100 then grown.(health := grown.health - 0.5) else grown;
        GrowOut(q, w', q.health > 0.0)
  }

  // ---------------------------------------------------------------------
  // Reproduction
  // ---------------------------------------------------------------------

  /** The eight neighbour offsets `(dx, dy)` in the source's scan order:
      `dx` runs over -1, 0, 1 in the outer loop, `dy` over -1, 0, 1 in the
      inner loop, and the centre `(0, 0)` is skipped. */
  const Offsets: seq<(int, int)> :=
    [(-1, -1), (-1, 0), (-1, 1), (0, -1), (0, 1), (1, -1), (1, 0), (1, 1)]

  function NeighbourAt(p: Plant, j: nat): (int, int)
    requires j < 8
  {
    (p.x + Offsets[j].0, p.y + Offsets[j].1)
  }

  /** Whether the `j`-th neighbour is an in-bounds soil cell; exactly these
      neighbours consume a draw during the scan. */
  predicate SoilNeighbour(w: World, p: Plant, j: nat)
    requires Shaped(w) && j < 8
  {
    var (nx, ny) := NeighbourAt(p, j);
    match GetCell(w, nx, ny)
    case Some(c) => c.kind == Soil
    case None => false
  }

  datatype ScanOut = ScanOut(spot: Option<(int, int)>, next: nat)

  /** The neighbour scan from offset `i` on: the first in-bounds soil
      neighbour whose 30% coin succeeds is chosen and the scan stops. */
  function Scan(w: World, p: Plant, i: nat, draws: Draws, k: nat): (r: ScanOut)
    requires Shaped(w) && i <= 8
    ensures k <= r.next <= k + (8 - i)
    ensures r.spot.Some? ==>
              var (nx, ny) := r.spot.value;
              && InBounds(w, nx, ny) && w.grid[ny][nx].kind == Soil
              && -1 <= nx - p.x <= 1 && -1 <= ny - p.y <= 1
              && (nx, ny) != (p.x, p.y)
    decreases 8 - i
  {
    if i == 8 then ScanOut(None, k)
    else if SoilNeighbour(w, p, i) then
      if draws(k) < 0.3 then ScanOut(Some(NeighbourAt(p, i)), k + 1)
      else Scan(w, p, i + 1, draws, k + 1)
    else Scan(w, p, i + 1, draws, k)
  }

  /** The in-bounds soil neighbours at offsets `i` up to `e` (exclusive),
      in scan order: exactly the cells at which a scan over those offsets
      reads a draw. */
  function SoilSpots(w: World, p: Plant, i: nat, e: nat): (s: seq<(int, int)>)
    requires Shaped(w) && i <= e <= 8
    ensures |s| <= e - i
    decreases e - i
  {
    if i == e then []
    else if SoilNeighbour(w, p, i) then [NeighbourAt(p, i)] + SoilSpots(w, p, i + 1, e)
    else SoilSpots(w, p, i + 1, e)
  }

  /** Reference definition of "the first coin that succeeds": the index of
      the first of `n` draws from cursor `k` below 0.3, or `n` when none is. */
  function FirstCoin(draws: Draws, k: nat, n: nat): (t: nat)
    ensures t <= n
    ensures t < n ==> draws(k + t) < 0.3
    ensures forall u :: k <= u < k + t ==> draws(u) >= 0.3
    decreases n
  {
    if n == 0 then 0
    else if draws(k) < 0.3 then 0
    else 1 + FirstCoin(draws, k + 1, n - 1)
  }

  /** Reference definition of a scan over the offsets `i` up to `e` that
      stops at the first soil neighbour whose coin succeeds: the spot is
      that neighbour, and the cursor moves past one coin per soil neighbour
      up to it, or past one coin per soil neighbour when none succeeds. */
  function SpotRef(w: World, p: Plant, i: nat, e: nat, draws: Draws, k: nat): ScanOut
    requires Shaped(w) && i <= e <= 8
  {
    var s := SoilSpots(w, p, i, e);
    var t := FirstCoin(draws, k, |s|);
    if t < |s| then ScanOut(Some(s[t]), k + t + 1) else ScanOut(None, k + |s|)
  }

  lemma SpotRefEnd(w: World, p: Plant, e: nat, draws: Draws, k: nat)
    requires Shaped(w) && e <= 8
    ensures SpotRef(w, p, e, e, draws, k) == ScanOut(None, k)
  {
    assert SoilSpots(w, p, e, e) == [];
  }

  lemma SpotRefTakes(w: World, p: Plant, i: nat, e: nat, draws: Draws, k: nat)
    requires Shaped(w) && i < e <= 8
    requires SoilNeighbour(w, p, i) && draws(k) < 0.3
    ensures SpotRef(w, p, i, e, draws, k) == ScanOut(Some(NeighbourAt(p, i)), k + 1)
  {
    var s := SoilSpots(w, p, i, e);
    SoilSpotsCons(w, p, i, e);
    assert FirstCoin(draws, k, |s|) == 0;
  }

  lemma SpotRefSkipsBarren(w: World, p: Plant, i: nat, e: nat, draws: Draws, k: nat)
    requires Shaped(w) && i < e <= 8 && !SoilNeighbour(w, p, i)
    ensures SpotRef(w, p, i, e, draws, k) == SpotRef(w, p, i + 1, e, draws, k)
  {
    assert SoilSpots(w, p, i, e) == SoilSpots(w, p, i + 1, e);
  }

  lemma SpotRefMovesOn(w: World, p: Plant, i: nat, e: nat, draws: Draws, k: nat)
    requires Shaped(w) && i < e <= 8
    requires SoilNeighbour(w, p, i) && draws(k) >= 0.3
    ensures SpotRef(w, p, i, e, draws, k) == SpotRef(w, p, i + 1, e, draws, k + 1)
  {
    var s := SoilSpots(w, p, i, e);
    var s' := SoilSpots(w, p, i + 1, e);
    SoilSpotsCons(w, p, i, e);
    var t' := FirstCoin(draws, k + 1, |s'|);
    FirstCoinSkips(draws, k, |s|);
    assert t' < |s'| ==> s[t' + 1] == s'[t'];
  }

  /** At a soil neighbour the list of soil spots starts with it. */
  lemma SoilSpotsCons(w: World, p: Plant, i: nat, e: nat)
    requires Shaped(w) && i < e <= 8 && SoilNeighbour(w, p, i)
    ensures SoilSpots(w, p, i, e) == [NeighbourAt(p, i)] + SoilSpots(w, p, i + 1, e)
  {
  }

  /** A failed coin at a soil neighbour moves the scan on by one offset
      and one draw. */
  lemma ScanStepsOver(w: World, p: Plant, i: nat, draws: Draws, k: nat)
    requires Shaped(w) && i < 8
    requires SoilNeighbour(w, p, i) && draws(k) >= 0.3
    ensures Scan(w, p, i, draws, k) == Scan(w, p, i + 1, draws, k + 1)
  {
  }

  /** A failed first coin shifts the first success by one. */
  lemma FirstCoinSkips(draws: Draws, k: nat, n: nat)
    requires n > 0 && draws(k) >= 0.3
    ensures FirstCoin(draws, k, n) == FirstCoin(draws, k + 1, n - 1) + 1
  {
  }

  /** The scan visits the in-bounds soil neighbours in order, reading one
      draw at each, and stops at the first whose coin succeeds. */
  lemma {:induction false} ScanPicksFirst(w: World, p: Plant, i: nat, draws: Draws, k: nat)
    requires Shaped(w) && i <= 8
    ensures Scan(w, p, i, draws, k) == SpotRef(w, p, i, 8, draws, k)
    decreases 8 - i
  {
    if i == 8 {
      SpotRefEnd(w, p, 8, draws, k);
    } else if !SoilNeighbour(w, p, i) {
      ScanPicksFirst(w, p, i + 1, draws, k);
      SpotRefSkipsBarren(w, p, i, 8, draws, k);
    } else if draws(k) < 0.3 {
      SpotRefTakes(w, p, i, 8, draws, k);
    } else {
      ScanPicksFirst(w, p, i + 1, draws, k + 1);
      SpotRefMovesOn(w, p, i, 8, draws, k);
      ScanStepsOver(w, p, i, draws, k);
    }
  }

  /** Whether `c` stands on one of the eight cells around `p`. */
  predicate Adjacent(c: Plant, p: Plant)
  {
    -1 <= c.x - p.x <= 1 && -1 <= c.y - p.y <= 1 && (c.x, c.y) != (p.x, p.y)
  }

  /** A plant may reproduce only once it is at least 30 ticks old and of
      size at least 0.3. */
  predicate Eligible(p: Plant)
  {
    p.age >= 30 && p.size >= 0.3
  }

  /** The chance of a reproduction event: health as a fraction of 100,
      scaled by size. */
  function ReproductionChance(p: Plant): real
  {
    p.health / 100.0 * p.size
  }

  datatype ReproduceOut = ReproduceOut(offspring: seq<Plant>, next: nat)

  /** An eligible plant reproduces when a draw falls below
      `health / 100 * size`; it then scans its neighbours for a spot.
      At most one offspring results, on an in-bounds soil neighbour, never
      on the parent's own cell, and it starts fresh. */
  function Reproduce(p: Plant, w: World, draws: Draws, k: nat): (r: ReproduceOut)
    requires Shaped(w)
    ensures |r.offspring| <= 1
    ensures !Eligible(p) ==> r.offspring == [] && r.next == k
    ensures Eligible(p) && draws(k) >= ReproductionChance(p) ==>
              r.offspring == [] && r.next == k + 1
    ensures k <= r.next <= k + 9
    ensures forall c :: c in r.offspring ==>
              && Fresh(c) && OnSoil(w, c)
              && -1 <= c.x - p.x <= 1 && -1 <= c.y - p.y <= 1
              && (c.x, c.y) != (p.x, p.y)
  {
    if p.age < 30 || p.size < 0.3 then ReproduceOut([], k)
    else if draws(k) < ReproductionChance(p) then
      var s := Scan(w, p, 0, draws, k + 1);
      match s.spot
      case Some(pos) => ReproduceOut([NewPlant(pos.0, pos.1)], s.next)
      case None => ReproduceOut([], s.next)
    else ReproduceOut([], k + 1)
  }

  /** When the reproduction draw succeeds, the offspring stands exactly at
      the first soil neighbour, in scan order, whose coin succeeds, and
      there is none when no coin succeeds. */
  lemma ReproducePlacesAtFirst(p: Plant, w: World, draws: Draws, k: nat)
    requires Shaped(w)
    requires Eligible(p) && draws(k) < ReproductionChance(p)
    ensures var s := SoilSpots(w, p, 0, 8);
            var t := FirstCoin(draws, k + 1, |s|);
            Reproduce(p, w, draws, k).offspring ==
              (if t < |s| then [NewPlant(s[t].0, s[t].1)] else [])
  {
    ScanPicksFirst(w, p, 0, draws, k + 1);
    ReproduceUsesScan(p, w, draws, k);
  }

  lemma ReproduceUsesScan(p: Plant, w: World, draws: Draws, k: nat)
    requires Shaped(w)
    requires Eligible(p) && draws(k) < ReproductionChance(p)
    ensures var sc := Scan(w, p, 0, draws, k + 1);
            Reproduce(p, w, draws, k).offspring ==
              (if sc.spot.Some? then [NewPlant(sc.spot.value.0, sc.spot.value.1)] else [])
  {
  }

  // ---------------------------------------------------------------------
  // The scan as the source writes it
  // ---------------------------------------------------------------------

  /** The first offset index of the column after the one holding offset
      `i`: the columns `dx = -1, 0, 1` hold offsets 0..2, 3..4 and 5..7. */
  function NextColumn(i: nat): (j: nat)
    requires i < 8
    ensures i < j <= 8
  {
    if i < 3 then 3 else if i < 5 then 5 else 8
  }

  /** How many columns the scan from offset `i` still enters. */
  function ColumnsLeft(i: nat): nat
  {
    if i < 3 then 3 else if i < 5 then 2 else if i < 8 then 1 else 0
  }

  datatype SpreadOut = SpreadOut(offspring: seq<Plant>, next: nat)

  /** The neighbour scan as written: a successful coin places an offspring
      and leaves only the inner loop over `dy`, so the scan carries on with
      the next column `dx`. Each column yields at most one offspring. */
  function ScanAsWritten(w: World, p: Plant, i: nat, draws: Draws, k: nat): (r: SpreadOut)
    requires Shaped(w) && i <= 8
    ensures |r.offspring| <= ColumnsLeft(i)
    // the seeds lie in distinct columns, left to right, none left of column `i`
    ensures forall j, j' :: 0 <= j < j' < |r.offspring| ==> r.offspring[j].x < r.offspring[j'].x
    ensures i < 8 ==> forall j :: 0 <= j < |r.offspring| ==> r.offspring[j].x >= p.x + Offsets[i].0
    ensures k <= r.next <= k + (8 - i)
    ensures forall j :: 0 <= j < |r.offspring| ==>
              Fresh(r.offspring[j]) && OnSoil(w, r.offspring[j]) && Adjacent(r.offspring[j], p)
    decreases 8 - i
  {
    if i == 8 then SpreadOut([], k)
    else if SoilNeighbour(w, p, i) then
      if draws(k) < 0.3 then
        var (nx, ny) := NeighbourAt(p, i);
        var rest := ScanAsWritten(w, p, NextColumn(i), draws, k + 1);
        assert NextColumn(i) < 8 ==> Offsets[NextColumn(i)].0 == Offsets[i].0 + 1;
        SpreadOut([NewPlant(nx, ny)] + rest.offspring, rest.next)
      else ScanAsWritten(w, p, i + 1, draws, k + 1)
    else ScanAsWritten(w, p, i + 1, draws, k)
  }

  /** `reproduce` as written: the eligibility gate and the reproduction
      draw as in `Reproduce`, then the column-by-column scan. */
  function ReproduceAsWritten(p: Plant, w: World, draws: Draws, k: nat): (r: SpreadOut)
    requires Shaped(w)
    ensures |r.offspring| <= 3
    ensures !Eligible(p) ==> r.offspring == [] && r.next == k
    ensures Eligible(p) && draws(k) >= ReproductionChance(p) ==>
              r.offspring == [] && r.next == k + 1
    // a successful reproduction draw hands over to the column-by-column scan
    ensures Eligible(p) && draws(k) < ReproductionChance(p) ==>
              r == ScanAsWritten(w, p, 0, draws, k + 1)
    ensures forall j :: 0 <= j < |r.offspring| ==>
              Fresh(r.offspring[j]) && OnSoil(w, r.offspring[j]) && Adjacent(r.offspring[j], p)
  {
    if p.age < 30 || p.size < 0.3 then SpreadOut([], k)
    else if draws(k) < ReproductionChance(p) then ScanAsWritten(w, p, 0, draws, k + 1)
    else SpreadOut([], k + 1)
  }

  /** The scan as written and the intended scan agree on whether a seed is
      placed at all and on where the first one goes; they differ only in
      what follows it. */
  lemma {:induction false} ScanAsWrittenStartsLikeScan(w: World, p: Plant, i: nat, draws: Draws, k: nat)
    requires Shaped(w) && i <= 8
    ensures var a := ScanAsWritten(w, p, i, draws, k);
            var s := Scan(w, p, i, draws, k);
            && (|a.offspring| > 0 <==> s.spot.Some?)
            && (s.spot.Some? ==> (a.offspring[0].x, a.offspring[0].y) == s.spot.value)
    decreases 8 - i
  {
    if i < 8 {
      if !SoilNeighbour(w, p, i) {
        ScanAsWrittenStartsLikeScan(w, p, i + 1, draws, k);
      } else if draws(k) >= 0.3 {
        ScanAsWrittenStartsLikeScan(w, p, i + 1, draws, k + 1);
      }
    }
  }

  /** The scan as written once a column has produced `c`: the column's
      seed, if any, followed by what the scan from the next column yields. */
  function AfterColumn(w: World, p: Plant, c: ScanOut, e: nat, draws: Draws): SpreadOut
    requires Shaped(w) && e <= 8
  {
    var rest := ScanAsWritten(w, p, e, draws, c.next);
    if c.spot.Some? then
      SpreadOut([NewPlant(c.spot.value.0, c.spot.value.1)] + rest.offspring, rest.next)
    else rest
  }

  /** Within each column the scan as written agrees with the reference
      definition: the seed of a column, if any, is its first soil cell
      whose coin succeeds, the coins read are exactly those of the soil
      cells up to it, and the scan then goes on from the next column.
      Applied to the columns 0..3, 3..5 and 5..8 in turn, this fixes every
      seed and every draw of the scan. */
  lemma {:induction false} ScanAsWrittenColumn(w: World, p: Plant, i: nat, e: nat, draws: Draws, k: nat)
    requires Shaped(w) && i <= e <= 8
    requires i < e ==> NextColumn(i) == e
    ensures ScanAsWritten(w, p, i, draws, k) == AfterColumn(w, p, SpotRef(w, p, i, e, draws, k), e, draws)
    decreases e - i
  {
    if i == e {
      SpotRefEnd(w, p, e, draws, k);
    } else if !SoilNeighbour(w, p, i) {
      ScanAsWrittenColumn(w, p, i + 1, e, draws, k);
      SpotRefSkipsBarren(w, p, i, e, draws, k);
      assert ScanAsWritten(w, p, i, draws, k) == ScanAsWritten(w, p, i + 1, draws, k);
    } else if draws(k) < 0.3 {
      SpotRefTakes(w, p, i, e, draws, k);
    } else {
      ScanAsWrittenColumn(w, p, i + 1, e, draws, k + 1);
      SpotRefMovesOn(w, p, i, e, draws, k);
      assert ScanAsWritten(w, p, i, draws, k) == ScanAsWritten(w, p, i + 1, draws, k + 1);
    }
  }

  /** The seed a column contributes: none, or a fresh plant at its spot. */
  function SeedOf(c: ScanOut): (r: seq<Plant>)
    ensures |r| <= 1
  {
    if c.spot.Some? then [NewPlant(c.spot.value.0, c.spot.value.1)] else []
  }

  lemma ColumnSeeds(w: World, p: Plant, i: nat, e: nat, draws: Draws, k: nat)
    requires Shaped(w) && i < e <= 8 && NextColumn(i) == e
    ensures var c := SpotRef(w, p, i, e, draws, k);
            && ScanAsWritten(w, p, i, draws, k).offspring
                 == SeedOf(c) + ScanAsWritten(w, p, e, draws, c.next).offspring
            && ScanAsWritten(w, p, i, draws, k).next == ScanAsWritten(w, p, e, draws, c.next).next
  {
    ScanAsWrittenColumn(w, p, i, e, draws, k);
  }

  /** The whole scan as written, column by column: the offspring are the
      seeds of the columns dx = -1, 0, 1 in turn, each column starting with
      the cursor the previous one left, and the draws end where the last
      column's do. */
  lemma ScanAsWrittenByColumns(w: World, p: Plant, draws: Draws, k: nat)
    requires Shaped(w)
    ensures var c0 := SpotRef(w, p, 0, 3, draws, k);
            var c1 := SpotRef(w, p, 3, 5, draws, c0.next);
            var c2 := SpotRef(w, p, 5, 8, draws, c1.next);
            && ScanAsWritten(w, p, 0, draws, k).offspring == SeedOf(c0) + SeedOf(c1) + SeedOf(c2)
            && ScanAsWritten(w, p, 0, draws, k).next == c2.next
  {
    var c0 := SpotRef(w, p, 0, 3, draws, k);
    var c1 := SpotRef(w, p, 3, 5, draws, c0.next);
    var c2 := SpotRef(w, p, 5, 8, draws, c1.next);
    ColumnSeeds(w, p, 0, 3, draws, k);
    ColumnSeeds(w, p, 3, 5, draws, c0.next);
    ColumnSeeds(w, p, 5, 8, draws, c1.next);
    assert ScanAsWritten(w, p, 8, draws, c2.next) == SpreadOut([], c2.next);
    assert SeedOf(c0) + (SeedOf(c1) + SeedOf(c2)) == SeedOf(c0) + SeedOf(c1) + SeedOf(c2);
  }

  /** A 3 x 3 world of soil cells. */
  const SoilPatch := World(3, 3, seq(3, _ => seq(3, _ => DefaultCell)), 0, 0, 0)

  /** A plant of age 30, size 0.3 and full health in the middle of the patch. */
  const Sprout := Plant(1, 1, 30, 100.0, 0.3, 0.0, 0.0)

  lemma SoilPatchAllSoil(j: nat)
    requires j < 8
    ensures Shaped(SoilPatch) && SoilNeighbour(SoilPatch, Sprout, j)
  {
    var (nx, ny) := NeighbourAt(Sprout, j);
    assert 0 <= nx < 3 && 0 <= ny < 3;
    assert SoilPatch.grid[ny][nx] == DefaultCell;
  }

  /** With every draw 0, the sprout in the soil patch places, as written,
      three seeds, one in each column, where one is intended. */
  lemma ThreeSeedsAsWritten()
    ensures Shaped(SoilPatch)
    ensures |ReproduceAsWritten(Sprout, SoilPatch, _ => 0.0, 0).offspring| == 3
    ensures |Reproduce(Sprout, SoilPatch, _ => 0.0, 0).offspring| == 1
  {
    var zero: Draws := _ => 0.0;
    SoilPatchAllSoil(0);
    SoilPatchAllSoil(3);
    SoilPatchAllSoil(5);
    assert ReproductionChance(Sprout) == 0.3;
    assert |ScanAsWritten(SoilPatch, Sprout, 5, zero, 3).offspring| == 1;
    assert |ScanAsWritten(SoilPatch, Sprout, 3, zero, 2).offspring| == 2;
    assert |ScanAsWritten(SoilPatch, Sprout, 0, zero, 1).offspring| == 3;
    assert Scan(SoilPatch, Sprout, 0, zero, 1).spot.Some?;
  }
}

=== FILE: simulation.dfy ===
/** The simulation: a world, the ordered list of live plants, and the
    atmosphere. One `Update` is one simulated hour, run as a fixed
    pipeline: clock, water cycle, plant growth and reproduction, removal
    of the dead, addition of offspring, atmosphere accounting. */
module Simulation {
  import opened Common
  import opened Grid
  import opened Plants

  /** `airWater` is the atmospheric water pool. The source keeps it in a
      dictionary entry that is absent until first written and reads as 0
      whenever absent, so the model starts it at 0. */
  datatype Sim = Sim(world: World, plants: seq<Plant>, co2: real, o2: real, airWater: real)

  /** The source's defaults: 20 plants, 10 placement attempts each. */
  const SeedCount: nat := 20
  const SeedTries: nat := 10

  // ---------------------------------------------------------------------
  // Seeding
  // ---------------------------------------------------------------------

  datatype Placement = Placement(spot: Option<(int, int)>, next: nat)

  /** Up to `tries` attempts, each drawing a column then a row, to find a
      soil cell; the first soil cell found is taken. */
  function FindSoil(w: World, tries: nat, draws: Draws, k: nat): (r: Placement)
    requires Shaped(w) && w.width >= 1 && w.height >= 1
    ensures k <= r.next <= k + 2 * tries
    ensures r.spot.Some? ==>
              InBounds(w, r.spot.value.0, r.spot.value.1)
              && w.grid[r.spot.value.1][r.spot.value.0].kind == Soil
    decreases tries
  {
    if tries == 0 then Placement(None, k)
    else
      var x := RandInt(0, w.width - 1, draws(k));
      var y := RandInt(0, w.height - 1, draws(k + 1));
      match GetCell(w, x, y)
      case Some(c) =>
        if c.kind == Soil then Placement(Some((x, y)), k + 2)
        else FindSoil(w, tries - 1, draws, k + 2)
      case None => FindSoil(w, tries - 1, draws, k + 2)
  }

  datatype Seeding = Seeding(plants: seq<Plant>, next: nat)

  /** `n` placement rounds; a round that finds no soil adds no plant. */
  function SeedPlants(w: World, n: nat, draws: Draws, k: nat): (r: Seeding)
    requires Shaped(w) && w.width >= 1 && w.height >= 1
    ensures |r.plants| <= n
    ensures forall p :: p in r.plants ==> Fresh(p) && OnSoil(w, p)
    ensures r.next >= k
    decreases n
  {
    if n == 0 then Seeding([], k)
    else
      var f := FindSoil(w, SeedTries, draws, k);
      var rest := SeedPlants(w, n - 1, draws, f.next);
      match f.spot
      case Some(pos) => Seeding([NewPlant(pos.0, pos.1)] + rest.plants, rest.next)
      case None => rest
  }

  /** On an all-soil world the first attempt of every round succeeds, so
      every round places a plant. */
  lemma {:induction false} SeedPlantsFillsAllSoil(w: World, n: nat, draws: Draws, k: nat)
    requires Shaped(w) && w.width >= 1 && w.height >= 1
    requires forall y, x :: 0 <= y < w.height && 0 <= x < w.width ==> w.grid[y][x].kind == Soil
    ensures |SeedPlants(w, n, draws, k).plants| == n
    decreases n
  {
    if n > 0 {
      var f := FindSoil(w, SeedTries, draws, k);
      assert f.spot.Some?;
      SeedPlantsFillsAllSoil(w, n - 1, draws, f.next);
    }
  }

  datatype Step = Step(sim: Sim, next: nat)

  /** A new simulation: a fresh world, at most 20 fresh plants on soil,
      CO2 and O2 at 100 and no atmospheric water. The source's `randint`
      over an empty range fails, so both dimensions must be positive. */
  function NewSim(width: nat, height: nat, draws: Draws, k: nat): (r: Step)
    requires width >= 1 && height >= 1
    ensures r.sim.world == NewWorld(width, height)
    ensures r.sim.co2 == 100.0 && r.sim.o2 == 100.0 && r.sim.airWater == 0.0
    ensures |r.sim.plants| <= SeedCount
    ensures forall p :: p in r.sim.plants ==> Fresh(p) && OnSoil(r.sim.world, p)
  {
    var w := NewWorld(width, height);
    var seeded := SeedPlants(w, SeedCount, draws, k);
    Step(Sim(w, seeded.plants, 100.0, 100.0, 0.0), seeded.next)
  }

  /** A world too small for a lake is all soil, so seeding places all 20 plants. */
  lemma SmallWorldSeedsAll(width: nat, height: nat, draws: Draws, k: nat)
    requires width >= 1 && height >= 1
    requires !HasLake(width, height)
    ensures |NewSim(width, height, draws, k).sim.plants| == SeedCount
  {
    SeedPlantsFillsAllSoil(NewWorld(width, height), SeedCount, draws, k);
  }

  // ---------------------------------------------------------------------
  // Water cycle
  // ---------------------------------------------------------------------

  predicate IsDaytime(hour: int)
  {
    6 <= hour <= 18
  }

  datatype CellStep = CellStep(cell: Cell, air: real, next: nat)

  /** The water cycle at one cell. A lake cell in strong daylight feeds 0.01
      into the air and keeps its own water. A soil cell in very strong
      daylight loses `min(0.01, water * 0.05)` to the air; then, at night or
      when the air holds more than 2.0, a 5% draw may rain
      `min(0.2, air * 0.5)` from the air onto it, capped at 1.0. */
  function CycleCell(c: Cell, daytime: bool, air: real, draws: Draws, k: nat): (r: CellStep)
    ensures SoilWaterOnly(c, r.cell)
    ensures c.kind == Water ==> r.next == k && r.air >= air
    ensures k <= r.next <= k + 1
    ensures air >= 0.0 && SoilWaterOk(c) ==> r.air >= 0.0 && SoilWaterOk(r.cell)
    // soil never creates water: what the cell gains the air loses, and rain
    // beyond the cap is lost
    ensures c.kind == Soil && air >= 0.0 && c.water >= 0.0 ==>
              r.cell.water + r.air <= c.water + air
    // a lake cell feeds 0.01 into the air in strong daylight and is itself unchanged
    ensures c.kind == Water ==>
              r.cell == c && r.air == (if daytime && c.light > 0.5 then air + 0.01 else air)
    // a soil cell: evaporation `e` in very strong daylight, then a rain draw
    // exactly at night or when the air holds more than 2.0
    ensures c.kind == Soil ==>
              var e := if daytime && c.light > 0.7 then Min(0.01, c.water * 0.05) else 0.0;
              && (r.next == k + 1 <==> (!daytime || air + e > 2.0))
              && (r.next == k || draws(k) >= 0.05 ==>
                    r.cell.water == c.water - e && r.air == air + e)
              && (r.next == k + 1 && draws(k) < 0.05 ==>
                    var rain := Min(0.2, (air + e) * 0.5);
                    r.cell.water == Min(1.0, c.water - e + rain)
                    && r.air == Max(0.0, air + e - rain))
  {
    if c.kind == Water then
      CellStep(c, if daytime && c.light > 0.5 then air + 0.01 else air, k)
    else
      var evaporation := if daytime && c.light > 0.7 then Min(0.01, c.water * 0.05) else 0.0;
      var w1 := c.water - evaporation;
      var a1 := air + evaporation;
      if !daytime || a1 > 2.0 then
        if draws(k) < 0.05 then
          var rain := Min(0.2, a1 * 0.5);
          CellStep(c.(water := Min(1.0, w1 + rain)), Max(0.0, a1 - rain), k + 1)
        else CellStep(c.(water := w1), a1, k + 1)
      else CellStep(c.(water := w1), a1, k)
  }

  datatype RowStep = RowStep(cells: seq<Cell>, air: real, next: nat)

  predicate RowSoilWaterOk(row: seq<Cell>)
  {
    forall i :: 0 <= i < |row| ==> SoilWaterOk(row[i])
  }

  /** The pool and cursor each cell of a row is reached with when the row
      is entered with `air` and `k`; the last entry is what the row leaves
      for the next. */
  function RowTrace(row: seq<Cell>, daytime: bool, air: real, draws: Draws, k: nat): (tr: seq<(real, nat)>)
    ensures |tr| == |row| + 1
    ensures tr[0] == (air, k)
    ensures forall i {:trigger row[i]} :: 0 <= i < |row| ==>
              var c := CycleCell(row[i], daytime, tr[i].0, draws, tr[i].1);
              tr[i + 1] == (c.air, c.next)
    decreases |row|
  {
    if |row| == 0 then [(air, k)]
    else
      var c := CycleCell(row[0], daytime, air, draws, k);
      [(air, k)] + RowTrace(row[1..], daytime, c.air, draws, c.next)
  }

  /** The water cycle along one row, left to right. */
  function CycleRow(row: seq<Cell>, daytime: bool, air: real, draws: Draws, k: nat): (r: RowStep)
    ensures |r.cells| == |row|
    ensures forall i :: 0 <= i < |row| ==> SoilWaterOnly(row[i], r.cells[i])
    ensures r.next >= k
    ensures air >= 0.0 && RowSoilWaterOk(row) ==> r.air >= 0.0 && RowSoilWaterOk(r.cells)
    decreases |row|
  {
    if |row| == 0 then RowStep([], air, k)
    else
      var first := CycleCell(row[0], daytime, air, draws, k);
      var rest := CycleRow(row[1..], daytime, first.air, draws, first.next);
      RowStep([first.cell] + rest.cells, rest.air, rest.next)
  }

  lemma CellsFollowTraceCons(row: seq<Cell>, cell: Cell, rest: seq<Cell>,
                             tr: seq<(real, nat)>, daytime: bool, draws: Draws)
    requires |row| > 0 && |tr| == |row| + 1 && |rest| == |row| - 1
    requires cell == CycleCell(row[0], daytime, tr[0].0, draws, tr[0].1).cell
    requires forall i :: 0 <= i < |rest| ==>
               rest[i] == CycleCell(row[1..][i], daytime, tr[1..][i].0, draws, tr[1..][i].1).cell
    ensures forall i :: 0 <= i < |row| ==>
              ([cell] + rest)[i] == CycleCell(row[i], daytime, tr[i].0, draws, tr[i].1).cell
  {
    forall i | 1 <= i < |row|
      ensures ([cell] + rest)[i] == CycleCell(row[i], daytime, tr[i].0, draws, tr[i].1).cell
    {
      assert row[1..][i - 1] == row[i] && tr[1..][i - 1] == tr[i];
    }
  }

  /** Along a row, each cell takes one cell step with the pool and cursor
      the cells before it left, and the row leaves what the last step left. */
  lemma {:induction false} CycleRowFollowsTrace(row: seq<Cell>, daytime: bool, air: real, draws: Draws, k: nat)
    ensures var r := CycleRow(row, daytime, air, draws, k);
            var tr := RowTrace(row, daytime, air, draws, k);
            && (forall i :: 0 <= i < |row| ==>
                  r.cells[i] == CycleCell(row[i], daytime, tr[i].0, draws, tr[i].1).cell)
            && (r.air, r.next) == tr[|row|]
    decreases |row|
  {
    if |row| > 0 {
      var c := CycleCell(row[0], daytime, air, draws, k);
      var rest := CycleRow(row[1..], daytime, c.air, draws, c.next);
      var tr := RowTrace(row, daytime, air, draws, k);
      assert tr[1..] == RowTrace(row[1..], daytime, c.air, draws, c.next);
      CycleRowFollowsTrace(row[1..], daytime, c.air, draws, c.next);
      CellsFollowTraceCons(row, c.cell, rest.cells, tr, daytime, draws);
    }
  }

  datatype GridStep = GridStep(rows: seq<seq<Cell>>, air: real, next: nat)

  predicate GridSoilWaterOk(rows: seq<seq<Cell>>)
  {
    forall y :: 0 <= y < |rows| ==> RowSoilWaterOk(rows[y])
  }

  /** The pool and cursor each row is entered with when the grid is
      entered with `air` and `k`; the last entry is what the grid leaves. */
  function GridTrace(rows: seq<seq<Cell>>, daytime: bool, air: real, draws: Draws, k: nat): (gt: seq<(real, nat)>)
    ensures |gt| == |rows| + 1
    ensures gt[0] == (air, k)
    ensures forall y {:trigger rows[y]} :: 0 <= y < |rows| ==>
              var r := CycleRow(rows[y], daytime, gt[y].0, draws, gt[y].1);
              gt[y + 1] == (r.air, r.next)
    decreases |rows|
  {
    if |rows| == 0 then [(air, k)]
    else
      var r := CycleRow(rows[0], daytime, air, draws, k);
      [(air, k)] + GridTrace(rows[1..], daytime, r.air, draws, r.next)
  }

  /** The water cycle over all rows, top to bottom. */
  function CycleRows(rows: seq<seq<Cell>>, daytime: bool, air: real, draws: Draws, k: nat): (r: GridStep)
    ensures |r.rows| == |rows|
    ensures forall y :: 0 <= y < |rows| ==> |r.rows[y]| == |rows[y]|
    ensures forall y, x :: 0 <= y < |rows| && 0 <= x < |rows[y]| ==>
              SoilWaterOnly(rows[y][x], r.rows[y][x])
    ensures r.next >= k
    ensures air >= 0.0 && GridSoilWaterOk(rows) ==> r.air >= 0.0 && GridSoilWaterOk(r.rows)
    decreases |rows|
  {
    if |rows| == 0 then GridStep([], air, k)
    else
      var first := CycleRow(rows[0], daytime, air, draws, k);
      var rest := CycleRows(rows[1..], daytime, first.air, draws, first.next);
      GridStep([first.cells] + rest.rows, rest.air, rest.next)
  }

  lemma RowsFollowTraceCons(rows: seq<seq<Cell>>, cells: seq<Cell>, rest: seq<seq<Cell>>,
                            gt: seq<(real, nat)>, daytime: bool, draws: Draws)
    requires |rows| > 0 && |gt| == |rows| + 1 && |rest| == |rows| - 1
    requires cells == CycleRow(rows[0], daytime, gt[0].0, draws, gt[0].1).cells
    requires forall y :: 0 <= y < |rest| ==>
               rest[y] == CycleRow(rows[1..][y], daytime, gt[1..][y].0, draws, gt[1..][y].1).cells
    ensures forall y :: 0 <= y < |rows| ==>
              ([cells] + rest)[y] == CycleRow(rows[y], daytime, gt[y].0, draws, gt[y].1).cells
  {
    forall y | 1 <= y < |rows|
      ensures ([cells] + rest)[y] == CycleRow(rows[y], daytime, gt[y].0, draws, gt[y].1).cells
    {
      assert rows[1..][y - 1] == rows[y] && gt[1..][y - 1] == gt[y];
    }
  }

  /** Down the grid, each row is cycled with the pool and cursor the rows
      above it left, and the grid leaves what the last row left. */
  lemma {:induction false} CycleRowsFollowsTrace(rows: seq<seq<Cell>>, daytime: bool, air: real, draws: Draws, k: nat)
    ensures var r := CycleRows(rows, daytime, air, draws, k);
            var gt := GridTrace(rows, daytime, air, draws, k);
            && (forall y :: 0 <= y < |rows| ==>
                  r.rows[y] == CycleRow(rows[y], daytime, gt[y].0, draws, gt[y].1).cells)
            && (r.air, r.next) == gt[|rows|]
    decreases |rows|
  {
    if |rows| > 0 {
      var first := CycleRow(rows[0], daytime, air, draws, k);
      var rest := CycleRows(rows[1..], daytime, first.air, draws, first.next);
      var gt := GridTrace(rows, daytime, air, draws, k);
      assert gt[1..] == GridTrace(rows[1..], daytime, first.air, draws, first.next);
      CycleRowsFollowsTrace(rows[1..], daytime, first.air, draws, first.next);
      RowsFollowTraceCons(rows, first.cells, rest.rows, gt, daytime, draws);
    }
  }

  datatype Cycle = Cycle(world: World, air: real, next: nat)

  /** One pass of the water cycle over every cell, in row-major order.
      Only the water of soil cells changes; with moisture in [0, 1] and a
      non-negative pool to start with, both stay so. */
  function WaterCycle(w: World, air: real, draws: Draws, k: nat): (r: Cycle)
    requires Shaped(w)
    ensures OnlySoilWaterChanged(w, r.world)
    ensures r.next >= k
    ensures air >= 0.0 && SoilWaterBounded(w) ==> r.air >= 0.0 && SoilWaterBounded(r.world)
  {
    var g := CycleRows(w.grid, IsDaytime(w.hour), air, draws, k);
    var w' := w.(grid := g.rows);
    assert SoilWaterBounded(w) ==> GridSoilWaterOk(w.grid);
    assert GridSoilWaterOk(g.rows) ==> SoilWaterBounded(w');
    Cycle(w', g.air, g.next)
  }

  /** The water cycle visits the cells in row-major order: the cell at
      `(x, y)` takes one cell step with the pool and cursor that every cell
      of the rows above and every cell left of it in its own row left, and
      the pass leaves the pool and cursor of the last step. */
  lemma WaterCycleRowMajor(w: World, air: real, draws: Draws, k: nat)
    requires Shaped(w)
    ensures var r := WaterCycle(w, air, draws, k);
            var day := IsDaytime(w.hour);
            var gt := GridTrace(w.grid, day, air, draws, k);
            && (forall y, x :: 0 <= y < |w.grid| && 0 <= x < |w.grid[y]| ==>
                  var tr := RowTrace(w.grid[y], day, gt[y].0, draws, gt[y].1);
                  r.world.grid[y][x] == CycleCell(w.grid[y][x], day, tr[x].0, draws, tr[x].1).cell)
            && (r.air, r.next) == gt[|w.grid|]
  {
    var day := IsDaytime(w.hour);
    var gt := GridTrace(w.grid, day, air, draws, k);
    CycleRowsFollowsTrace(w.grid, day, air, draws, k);
    forall y | 0 <= y < |w.grid|
      ensures var tr := RowTrace(w.grid[y], day, gt[y].0, draws, gt[y].1);
              var cells := CycleRow(w.grid[y], day, gt[y].0, draws, gt[y].1).cells;
              forall x :: 0 <= x < |w.grid[y]| ==>
                cells[x] == CycleCell(w.grid[y][x], day, tr[x].0, draws, tr[x].1).cell
    {
      CycleRowFollowsTrace(w.grid[y], day, gt[y].0, draws, gt[y].1);
    }
  }

  // ---------------------------------------------------------------------
  // Plant pass
  // ---------------------------------------------------------------------

  datatype Pass = Pass(survivors: seq<Plant>, dead: seq<Plant>, offspring: seq<Plant>,
                       world: World, next: nat)

  predicate AllAlive(ps: seq<Plant>)
  {
    forall i :: 0 <= i < |ps| ==> ps[i].health > 0.0
  }

  predicate AllDead(ps: seq<Plant>)
  {
    forall i :: 0 <= i < |ps| ==> ps[i].health <= 0.0
  }

  /** Size within the bounds a plant keeps for life. */
  predicate AllSized(ps: seq<Plant>)
  {
    forall i :: 0 <= i < |ps| ==> 0.1 <= ps[i].size <= 1.0
  }

  predicate AllOnSoil(w: World, ps: seq<Plant>)
    requires Shaped(w)
  {
    forall i :: 0 <= i < |ps| ==> OnSoil(w, ps[i])
  }

  predicate AllFreshOnSoil(w: World, ps: seq<Plant>)
    requires Shaped(w)
  {
    forall i :: 0 <= i < |ps| ==> Fresh(ps[i]) && OnSoil(w, ps[i])
  }

  /** Standing on soil depends only on the layout, which only-water changes keep. */
  lemma FreshOnSoilTransfers(w: World, w': World, ps: seq<Plant>)
    requires OnlySoilWaterChanged(w, w')
    requires AllFreshOnSoil(w', ps)
    ensures AllFreshOnSoil(w, ps)
  {
    forall i | 0 <= i < |ps|
      ensures OnSoil(w, ps[i])
    {
      assert OnSoil(w', ps[i]);
    }
  }

  datatype Turn = Turn(plant: Plant, alive: bool, offspring: seq<Plant>, world: World, next: nat)

  /** One plant's turn in the pass: it grows, and if still alive it tries
      to reproduce, as the source's `reproduce` is written, on the world its
      growth left behind: at most one seed per neighbour column, so at most
      three. A dead plant reads no draw and has no offspring. */
  function PlantTurn(p: Plant, w: World, draws: Draws, k: nat): (t: Turn)
    requires Shaped(w)
    ensures t.alive <==> t.plant.health > 0.0
    ensures t.plant.x == p.x && t.plant.y == p.y
    ensures OnlySoilWaterChanged(w, t.world)
    ensures |t.offspring| <= 3
    ensures !t.alive ==> t.offspring == [] && t.next == k
    ensures t.next >= k
    ensures SoilWaterBounded(w) ==> SoilWaterBounded(t.world)
    ensures 0.1 <= p.size <= 1.0 ==> 0.1 <= t.plant.size <= 1.0
    ensures forall i :: 0 <= i < |t.offspring| ==>
              Fresh(t.offspring[i]) && OnSoil(w, t.offspring[i]) && Adjacent(t.offspring[i], t.plant)
    // the plant, its fate and the world are those growth leaves ...
    ensures var g := Grow(p, w); t.plant == g.plant && t.alive == g.alive && t.world == g.world
    // ... and a living plant's offspring and draws are those of its reproduction
    ensures t.alive ==>
              var rep := ReproduceAsWritten(t.plant, t.world, draws, k);
              t.offspring == rep.offspring && t.next == rep.next
  {
    var g := Grow(p, w);
    if !g.alive then Turn(g.plant, false, [], g.world, k)
    else
      var rep := ReproduceAsWritten(g.plant, g.world, draws, k);
      assert forall i :: 0 <= i < |rep.offspring| ==> rep.offspring[i] in rep.offspring;
      Turn(g.plant, true, rep.offspring, g.world, rep.next)
  }

  /** The pass for a non-empty list, from the first plant's turn and the
      pass over the rest. */
  function Prepend(t: Turn, rest: Pass): (r: Pass)
    ensures |r.survivors| + |r.dead| == |rest.survivors| + |rest.dead| + 1
    ensures t.alive ==> r.survivors == [t.plant] + rest.survivors && r.dead == rest.dead
    ensures !t.alive ==> r.survivors == rest.survivors && r.dead == [t.plant] + rest.dead
    ensures r.offspring == t.offspring + rest.offspring
    ensures r.world == rest.world && r.next == rest.next
  {
    if t.alive then Pass([t.plant] + rest.survivors, rest.dead, t.offspring + rest.offspring,
                         rest.world, rest.next)
    else Pass(rest.survivors, [t.plant] + rest.dead, t.offspring + rest.offspring,
              rest.world, rest.next)
  }

  /** Each plant in order takes its turn; a plant whose growth leaves it
      dead is set aside, the dead keeping their post-growth state. Every
      plant ends up in exactly one of the two lists, each living one has at
      most three offspring, and only soil moisture changes in the world. */
  function PlantPass(plants: seq<Plant>, w: World, draws: Draws, k: nat): (r: Pass)
    requires Shaped(w)
    ensures |r.survivors| + |r.dead| == |plants|
    ensures |r.offspring| <= 3 * |r.survivors|
    ensures OnlySoilWaterChanged(w, r.world)
    ensures r.next >= k
    decreases |plants|
  {
    if |plants| == 0 then Pass([], [], [], w, k)
    else
      var t := PlantTurn(plants[0], w, draws, k);
      var rest := PlantPass(plants[1..], t.world, draws, t.next);
      OnlySoilWaterChain(w, t.world, rest.world);
      Prepend(t, rest)
  }

  /** The turns of the pass in order: each plant takes its turn on the
      world and with the cursor the turn before it left. */
  function Turns(plants: seq<Plant>, w: World, draws: Draws, k: nat): (ts: seq<Turn>)
    requires Shaped(w)
    ensures |ts| == |plants|
    ensures forall i :: 0 <= i < |ts| ==> Shaped(ts[i].world)
    decreases |plants|
  {
    if |plants| == 0 then []
    else
      var t := PlantTurn(plants[0], w, draws, k);
      [t] + Turns(plants[1..], t.world, draws, t.next)
  }

  /** The first plant takes its turn on the world and cursor the pass
      starts from, and every later plant on those its predecessor's turn
      left. */
  lemma {:induction false} TurnsChain(plants: seq<Plant>, w: World, draws: Draws, k: nat)
    requires Shaped(w)
    ensures var ts := Turns(plants, w, draws, k);
            && (|plants| > 0 ==> ts[0] == PlantTurn(plants[0], w, draws, k))
            && (forall i {:trigger plants[i]} :: 1 <= i < |plants| ==>
                  ts[i] == PlantTurn(plants[i], ts[i - 1].world, draws, ts[i - 1].next))
    decreases |plants|
  {
    if |plants| > 0 {
      var t := PlantTurn(plants[0], w, draws, k);
      var rest := Turns(plants[1..], t.world, draws, t.next);
      TurnsChain(plants[1..], t.world, draws, t.next);
      TurnsChainCons(plants, plants[1..], t, rest, draws);
    }
  }

  lemma TurnsChainCons(plants: seq<Plant>, tail: seq<Plant>, t: Turn, rest: seq<Turn>, draws: Draws)
    requires |plants| > 0 && tail == plants[1..] && |rest| == |tail|
    requires forall i :: 0 <= i < |rest| ==> Shaped(rest[i].world)
    requires Shaped(t.world)
    requires |rest| > 0 ==> rest[0] == PlantTurn(tail[0], t.world, draws, t.next)
    requires forall i {:trigger tail[i]} :: 1 <= i < |rest| ==>
               rest[i] == PlantTurn(tail[i], rest[i - 1].world, draws, rest[i - 1].next)
    ensures var ts := [t] + rest;
            forall i {:trigger plants[i]} :: 1 <= i < |plants| ==>
              ts[i] == PlantTurn(plants[i], ts[i - 1].world, draws, ts[i - 1].next)
  {
    var ts := [t] + rest;
    forall i | 1 <= i < |plants|
      ensures ts[i] == PlantTurn(plants[i], ts[i - 1].world, draws, ts[i - 1].next)
    {
      assert plants[i] == tail[i - 1];
      assert ts[i] == rest[i - 1];
      if i > 1 {
        assert ts[i - 1] == rest[i - 2];
      }
    }
  }

  /** The plants of the living turns, in order. */
  function Living(ts: seq<Turn>): seq<Plant>
  {
    if |ts| == 0 then [] else (if ts[0].alive then [ts[0].plant] else []) + Living(ts[1..])
  }

  /** The plants of the turns that end in death, in order. */
  function Dying(ts: seq<Turn>): seq<Plant>
  {
    if |ts| == 0 then [] else (if ts[0].alive then [] else [ts[0].plant]) + Dying(ts[1..])
  }

  /** The offspring of all turns, in order. */
  function AllOffspring(ts: seq<Turn>): seq<Plant>
  {
    if |ts| == 0 then [] else ts[0].offspring + AllOffspring(ts[1..])
  }

  /** `r` is the outcome of taking the turns `ts` one after another from
      world `w` and cursor `k`: the survivors are the plants of the living
      turns, the dead those of the others, the offspring those of every
      turn, in order, and the world and cursor are those the last turn
      left. */
  predicate FollowsTurns(r: Pass, ts: seq<Turn>, w: World, k: nat)
  {
    && r.survivors == Living(ts)
    && r.dead == Dying(ts)
    && r.offspring == AllOffspring(ts)
    && r.world == (if |ts| == 0 then w else ts[|ts| - 1].world)
    && r.next == (if |ts| == 0 then k else ts[|ts| - 1].next)
  }

  lemma PrependFollowsTurns(t: Turn, rest: Pass, ts: seq<Turn>, w: World, k: nat)
    requires FollowsTurns(rest, ts, t.world, t.next)
    ensures FollowsTurns(Prepend(t, rest), [t] + ts, w, k)
  {
    assert ([t] + ts)[1..] == ts;
  }

  /** The pass is its turns taken one after another. */
  lemma {:induction false} PlantPassFollowsTurns(plants: seq<Plant>, w: World, draws: Draws, k: nat)
    requires Shaped(w)
    ensures FollowsTurns(PlantPass(plants, w, draws, k), Turns(plants, w, draws, k), w, k)
    decreases |plants|
  {
    if |plants| > 0 {
      var t := PlantTurn(plants[0], w, draws, k);
      var rest := PlantPass(plants[1..], t.world, draws, t.next);
      PlantPassFollowsTurns(plants[1..], t.world, draws, t.next);
      PrependFollowsTurns(t, rest, Turns(plants[1..], t.world, draws, t.next), w, k);
    }
  }

  /** Prepending one turn keeps the survivors alive and the set-aside dead. */
  lemma PrependSortsByHealth(t: Turn, rest: Pass)
    requires t.alive <==> t.plant.health > 0.0
    requires AllAlive(rest.survivors) && AllDead(rest.dead)
    ensures var r := Prepend(t, rest);
            AllAlive(r.survivors) && AllDead(r.dead)
  {
    var r := Prepend(t, rest);
    if t.alive {
      assert forall i :: 1 <= i < |r.survivors| ==> r.survivors[i] == rest.survivors[i - 1];
    } else {
      assert forall i :: 1 <= i < |r.dead| ==> r.dead[i] == rest.dead[i - 1];
    }
  }

  /** The pass sorts the plants by health after growth: every survivor is
      alive and every plant set aside is dead. */
  lemma {:induction false} PlantPassSortsByHealth(plants: seq<Plant>, w: World, draws: Draws, k: nat)
    requires Shaped(w)
    ensures var r := PlantPass(plants, w, draws, k);
            AllAlive(r.survivors) && AllDead(r.dead)
    decreases |plants|
  {
    if |plants| > 0 {
      var t := PlantTurn(plants[0], w, draws, k);
      PlantPassSortsByHealth(plants[1..], t.world, draws, t.next);
      PrependSortsByHealth(t, PlantPass(plants[1..], t.world, draws, t.next));
    }
  }

  /** Every offspring of the pass is a fresh plant on a soil cell of the
      world the pass started from. */
  lemma {:induction false} PlantPassOffspringFresh(plants: seq<Plant>, w: World, draws: Draws, k: nat)
    requires Shaped(w)
    ensures AllFreshOnSoil(w, PlantPass(plants, w, draws, k).offspring)
    decreases |plants|
  {
    if |plants| > 0 {
      var t := PlantTurn(plants[0], w, draws, k);
      var rest := PlantPass(plants[1..], t.world, draws, t.next);
      PlantPassOffspringFresh(plants[1..], t.world, draws, t.next);
      FreshOnSoilTransfers(w, t.world, rest.offspring);
    }
  }

  /** Standing on soil depends only on the layout, so it is the same in two
      worlds that differ only in soil moisture. */
  lemma OnSoilAcross(w: World, w': World, ps: seq<Plant>)
    requires SameLayout(w, w')
    ensures AllOnSoil(w, ps) <==> AllOnSoil(w', ps)
  {
    forall i | 0 <= i < |ps|
      ensures OnSoil(w, ps[i]) <==> OnSoil(w', ps[i])
    {
    }
  }

  /** Soil moisture stays in [0, 1] through the pass. */
  lemma {:induction false} PlantPassKeepsSoilWater(plants: seq<Plant>, w: World, draws: Draws, k: nat)
    requires Shaped(w) && SoilWaterBounded(w)
    ensures SoilWaterBounded(PlantPass(plants, w, draws, k).world)
    decreases |plants|
  {
    if |plants| > 0 {
      var t := PlantTurn(plants[0], w, draws, k);
      PlantPassKeepsSoilWater(plants[1..], t.world, draws, t.next);
    }
  }

  /** The first plant's turn and the rest of the list, as the pass sees them. */
  lemma SplitFirst(plants: seq<Plant>, w: World)
    requires Shaped(w) && |plants| > 0
    requires AllSized(plants) && AllOnSoil(w, plants)
    ensures OnSoil(w, plants[0]) && 0.1 <= plants[0].size <= 1.0
    ensures AllSized(plants[1..]) && AllOnSoil(w, plants[1..])
  {
    forall i | 0 <= i < |plants[1..]|
      ensures plants[1..][i] == plants[i + 1]
    {
    }
  }

  /** Prepending one turn of a plant of good size on soil keeps sizes in
      [0.1, 1] and survivors on soil. */
  lemma PrependKeepsPlants(w: World, t: Turn, rest: Pass)
    requires Shaped(w)
    requires 0.1 <= t.plant.size <= 1.0 && OnSoil(w, t.plant)
    requires AllSized(rest.survivors) && AllSized(rest.dead) && AllOnSoil(w, rest.survivors)
    ensures var r := Prepend(t, rest);
            AllSized(r.survivors) && AllSized(r.dead) && AllOnSoil(w, r.survivors)
  {
    var r := Prepend(t, rest);
    if t.alive {
      assert forall i :: 1 <= i < |r.survivors| ==> r.survivors[i] == rest.survivors[i - 1];
    } else {
      assert forall i :: 1 <= i < |r.dead| ==> r.dead[i] == rest.dead[i - 1];
    }
  }

  /** Plants on soil with sizes in [0.1, 1] remain so through the pass:
      growth keeps the position and never shrinks a plant or takes it past 1. */
  lemma {:induction false} PlantPassKeepsPlants(plants: seq<Plant>, w: World, draws: Draws, k: nat)
    requires Shaped(w)
    requires AllSized(plants) && AllOnSoil(w, plants)
    ensures var r := PlantPass(plants, w, draws, k);
            AllSized(r.survivors) && AllSized(r.dead) && AllOnSoil(w, r.survivors)
    decreases |plants|
  {
    if |plants| > 0 {
      SplitFirst(plants, w);
      var t := PlantTurn(plants[0], w, draws, k);
      var rest := PlantPass(plants[1..], t.world, draws, t.next);
      assert OnSoil(w, t.plant);
      OnSoilAcross(w, t.world, plants[1..]);
      PlantPassKeepsPlants(plants[1..], t.world, draws, t.next);
      OnSoilAcross(w, t.world, rest.survivors);
      PrependKeepsPlants(w, t, rest);
    }
  }

  /** The cells the plants stand on, in order. */
  function Positions(ps: seq<Plant>): (s: seq<(int, int)>)
    ensures |s| == |ps|
    ensures forall i :: 0 <= i < |ps| ==> s[i] == (ps[i].x, ps[i].y)
  {
    seq(|ps|, i requires 0 <= i < |ps| => (ps[i].x, ps[i].y))
  }

  /** The positions of a non-empty list: the first plant's, then the rest's. */
  lemma PositionsCons(plants: seq<Plant>)
    requires |plants| > 0
    ensures Positions(plants) == [(plants[0].x, plants[0].y)] + Positions(plants[1..])
    ensures multiset(Positions(plants))
              == multiset{(plants[0].x, plants[0].y)} + multiset(Positions(plants[1..]))
  {
    assert Positions(plants) == [(plants[0].x, plants[0].y)] + Positions(plants[1..]);
  }

  /** Prepending one turn adds the turn's plant's cell once to the
      positions of survivors and dead together. */
  lemma PrependPositions(t: Turn, rest: Pass)
    ensures var r := Prepend(t, rest);
            multiset(Positions(r.survivors)) + multiset(Positions(r.dead))
              == multiset{(t.plant.x, t.plant.y)}
                 + multiset(Positions(rest.survivors)) + multiset(Positions(rest.dead))
  {
    var here := (t.plant.x, t.plant.y);
    if t.alive {
      assert Positions([t.plant] + rest.survivors) == [here] + Positions(rest.survivors);
    } else {
      assert Positions([t.plant] + rest.dead) == [here] + Positions(rest.dead);
    }
  }

  /** No plant moves, appears or vanishes in the pass: the positions of the
      survivors and the dead together are exactly those of the input. */
  lemma {:induction false} PlantPassKeepsPositions(plants: seq<Plant>, w: World, draws: Draws, k: nat)
    requires Shaped(w)
    ensures var r := PlantPass(plants, w, draws, k);
            multiset(Positions(r.survivors)) + multiset(Positions(r.dead))
              == multiset(Positions(plants))
    decreases |plants|
  {
    if |plants| > 0 {
      var t := PlantTurn(plants[0], w, draws, k);
      var rest := PlantPass(plants[1..], t.world, draws, t.next);
      PlantPassKeepsPositions(plants[1..], t.world, draws, t.next);
      PrependPositions(t, rest);
      PositionsCons(plants);
    }
  }

  /** Whether `a` is `b` with some elements left out, the rest in order. */
  predicate Subsequence<T(==)>(a: seq<T>, b: seq<T>)
    decreases |b|
  {
    if |a| == 0 then true
    else if |b| == 0 then false
    else if a[0] == b[0] then Subsequence(a[1..], b[1..])
    else Subsequence(a, b[1..])
  }

  /** Leaving out the first element keeps a subsequence. */
  lemma {:induction false} SubsequenceTail<T>(a: seq<T>, b: seq<T>)
    requires |a| > 0 && Subsequence(a, b)
    ensures Subsequence(a[1..], b)
    decreases |b|, 0
  {
    assert b == [b[0]] + b[1..];
    if a[0] == b[0] {
      SubsequenceWeaken(a[1..], b[1..], b[0]);
    } else {
      SubsequenceTail(a, b[1..]);
      SubsequenceWeaken(a[1..], b[1..], b[0]);
    }
  }

  /** A subsequence of `b` is one of `[e] + b`. */
  lemma {:induction false} SubsequenceWeaken<T>(a: seq<T>, b: seq<T>, e: T)
    requires Subsequence(a, b)
    ensures Subsequence(a, [e] + b)
    decreases |b|, 1
  {
    assert ([e] + b)[1..] == b;
    if |a| > 0 && a[0] == e {
      SubsequenceTail(a, b);
    }
  }

  /** Prepending the first plant's turn keeps the survivors a subsequence
      of the input, by position. */
  lemma PrependKeepsOrder(plants: seq<Plant>, t: Turn, rest: Pass)
    requires |plants| > 0 && t.plant.x == plants[0].x && t.plant.y == plants[0].y
    requires Subsequence(Positions(rest.survivors), Positions(plants[1..]))
    ensures Subsequence(Positions(Prepend(t, rest).survivors), Positions(plants))
  {
    var here := (plants[0].x, plants[0].y);
    PositionsCons(plants);
    if t.alive {
      var ps := Positions([t.plant] + rest.survivors);
      assert ps == [here] + Positions(rest.survivors);
      assert ps[1..] == Positions(rest.survivors);
    } else {
      SubsequenceWeaken(Positions(rest.survivors), Positions(plants[1..]), here);
    }
  }

  /** The survivors keep the order of the input: their positions are the
      input's positions with the dead plants' left out. */
  lemma {:induction false} PlantPassKeepsOrder(plants: seq<Plant>, w: World, draws: Draws, k: nat)
    requires Shaped(w)
    ensures Subsequence(Positions(PlantPass(plants, w, draws, k).survivors), Positions(plants))
    decreases |plants|
  {
    if |plants| > 0 {
      var t := PlantTurn(plants[0], w, draws, k);
      PlantPassKeepsOrder(plants[1..], t.world, draws, t.next);
      PrependKeepsOrder(plants, t, PlantPass(plants[1..], t.world, draws, t.next));
    }
  }

  /** Whether `c` stands next to one of the plants `ps`. */
  predicate HasParent(c: Plant, ps: seq<Plant>)
  {
    exists j :: 0 <= j < |ps| && Adjacent(c, ps[j])
  }

  /** Every offspring in `r` stands next to one of the survivors in `r`. */
  predicate OffspringNearSurvivors(r: Pass)
  {
    forall i :: 0 <= i < |r.offspring| ==> HasParent(r.offspring[i], r.survivors)
  }

  lemma PrependKeepsParents(t: Turn, rest: Pass)
    requires !t.alive ==> t.offspring == []
    requires forall i :: 0 <= i < |t.offspring| ==> Adjacent(t.offspring[i], t.plant)
    requires OffspringNearSurvivors(rest)
    ensures OffspringNearSurvivors(Prepend(t, rest))
  {
    var r := Prepend(t, rest);
    forall i | 0 <= i < |r.offspring|
      ensures HasParent(r.offspring[i], r.survivors)
    {
      if i < |t.offspring| {
        assert r.survivors[0] == t.plant;
        assert Adjacent(r.offspring[i], r.survivors[0]);
      } else {
        var i' := i - |t.offspring|;
        assert r.offspring[i] == rest.offspring[i'];
        assert HasParent(rest.offspring[i'], rest.survivors);
        var j :| 0 <= j < |rest.survivors| && Adjacent(rest.offspring[i'], rest.survivors[j]);
        if t.alive {
          assert r.survivors[j + 1] == rest.survivors[j];
        } else {
          assert r.survivors[j] == rest.survivors[j];
        }
      }
    }
  }

  /** Every offspring stands next to one of the survivors, its parent. */
  lemma {:induction false} PlantPassOffspringNearParent(plants: seq<Plant>, w: World, draws: Draws, k: nat)
    requires Shaped(w)
    ensures OffspringNearSurvivors(PlantPass(plants, w, draws, k))
    decreases |plants|
  {
    if |plants| > 0 {
      var t := PlantTurn(plants[0], w, draws, k);
      PlantPassOffspringNearParent(plants[1..], t.world, draws, t.next);
      PrependKeepsParents(t, PlantPass(plants[1..], t.world, draws, t.next));
    }
  }

  // ---------------------------------------------------------------------
  // Removal of the dead
  // ---------------------------------------------------------------------

  /** Reference definition: the resources the plants in `dead` return to
      cell `(x, y)`, half the size of each one standing there. */
  function Deposit(dead: seq<Plant>, x: int, y: int): real
  {
    if |dead| == 0 then 0.0
    else (if (dead[0].x, dead[0].y) == (x, y) then dead[0].size * 0.5 else 0.0)
         + Deposit(dead[1..], x, y)
  }

  /** Plants of non-negative size never take resources away. */
  lemma {:induction false} DepositNonNegative(dead: seq<Plant>, x: int, y: int)
    requires forall i :: 0 <= i < |dead| ==> dead[i].size >= 0.0
    ensures Deposit(dead, x, y) >= 0.0
    decreases |dead|
  {
    if |dead| > 0 {
      assert forall i :: 0 <= i < |dead[1..]| ==> dead[1..][i] == dead[i + 1];
      DepositNonNegative(dead[1..], x, y);
    }
  }

  /** A cell where no dead plant stands receives nothing. */
  lemma {:induction false} DepositElsewhere(dead: seq<Plant>, x: int, y: int)
    requires forall i :: 0 <= i < |dead| ==> (dead[i].x, dead[i].y) != (x, y)
    ensures Deposit(dead, x, y) == 0.0
    decreases |dead|
  {
    if |dead| > 0 {
      assert forall i :: 0 <= i < |dead[1..]| ==> dead[1..][i] == dead[i + 1];
      DepositElsewhere(dead[1..], x, y);
    }
  }

  /** Each dead plant contributes on its own: the deposit of two lists
      of dead is the sum of their deposits. */
  lemma {:induction false} DepositAppend(a: seq<Plant>, b: seq<Plant>, x: int, y: int)
    ensures Deposit(a + b, x, y) == Deposit(a, x, y) + Deposit(b, x, y)
    decreases |a|
  {
    if |a| == 0 {
      assert a + b == b;
    } else {
      assert (a + b)[1..] == a[1..] + b;
      DepositAppend(a[1..], b, x, y);
    }
  }

  /** A single dead plant returns exactly half its size to its own cell
      and nothing to any other. */
  lemma DepositSingle(p: Plant, x: int, y: int)
    ensures Deposit([p], x, y) == (if (p.x, p.y) == (x, y) then p.size * 0.5 else 0.0)
  {
    assert [p][1..] == [];
  }

  /** One dead plant returns half its size to its cell, if that is on the grid. */
  function ReturnOne(w: World, p: Plant): (w': World)
    requires Shaped(w)
    ensures Shaped(w') && w'.width == w.width && w'.height == w.height
    ensures w'.time == w.time && w'.hour == w.hour && w'.day == w.day
    ensures forall y, x :: 0 <= y < w.height && 0 <= x < w.width ==>
              w'.grid[y][x] == (if (x, y) == (p.x, p.y)
                                then w.grid[y][x].(resources := w.grid[y][x].resources + p.size * 0.5)
                                else w.grid[y][x])
  {
    match GetCell(w, p.x, p.y)
    case Some(c) => SetCell(w, p.x, p.y, c.(resources := c.resources + p.size * 0.5))
    case None => w
  }

  /** The dead, in order, return resources to their cells; only resources change. */
  function ReturnResources(w: World, dead: seq<Plant>): (w': World)
    requires Shaped(w)
    ensures SameLayout(w, w')
    ensures w'.time == w.time && w'.hour == w.hour && w'.day == w.day
    ensures forall y, x :: 0 <= y < w.height && 0 <= x < w.width ==>
              && w'.grid[y][x].light == w.grid[y][x].light
              && w'.grid[y][x].water == w.grid[y][x].water
              && w'.grid[y][x].resources == w.grid[y][x].resources + Deposit(dead, x, y)
    decreases |dead|
  {
    if |dead| == 0 then w
    else ReturnResources(ReturnOne(w, dead[0]), dead[1..])
  }

  // ---------------------------------------------------------------------
  // Atmosphere
  // ---------------------------------------------------------------------

  function SumCo2(ps: seq<Plant>): real
  {
    if |ps| == 0 then 0.0 else ps[0].co2Absorbed + SumCo2(ps[1..])
  }

  function SumO2(ps: seq<Plant>): real
  {
    if |ps| == 0 then 0.0 else ps[0].o2Produced + SumO2(ps[1..])
  }

  /** The totals over two lists are the sums of their totals. */
  lemma {:induction false} SumsAppend(a: seq<Plant>, b: seq<Plant>)
    ensures SumCo2(a + b) == SumCo2(a) + SumCo2(b)
    ensures SumO2(a + b) == SumO2(a) + SumO2(b)
    decreases |a|
  {
    if |a| == 0 {
      assert a + b == b;
    } else {
      assert (a + b)[1..] == a[1..] + b;
      SumsAppend(a[1..], b);
    }
  }

  /** Fresh plants have exchanged no gas. */
  lemma {:induction false} SumsOfFresh(ps: seq<Plant>)
    requires forall i :: 0 <= i < |ps| ==> Fresh(ps[i])
    ensures SumCo2(ps) == 0.0 && SumO2(ps) == 0.0
    decreases |ps|
  {
    if |ps| > 0 {
      assert forall i :: 0 <= i < |ps[1..]| ==> ps[1..][i] == ps[i + 1];
      SumsOfFresh(ps[1..]);
    }
  }

  /** Every plant's gas counters are cleared; nothing else about it changes. */
  function ResetCounters(ps: seq<Plant>): (qs: seq<Plant>)
    ensures |qs| == |ps|
    ensures forall i :: 0 <= i < |ps| ==>
              qs[i] == ps[i].(co2Absorbed := 0.0, o2Produced := 0.0)
  {
    seq(|ps|, i requires 0 <= i < |ps| => ps[i].(co2Absorbed := 0.0, o2Produced := 0.0))
  }

  /** The plants' exchange since the last pass moves CO2 into them and O2
      out, against a constant drift of 0.1 the other way; both levels are
      floored at 50 and the counters are cleared. */
  function UpdateAtmosphere(s: Sim): (s': Sim)
    ensures s'.co2 >= 50.0 && s'.o2 >= 50.0
    ensures s'.co2 >= s.co2 - SumCo2(s.plants) + 0.1
    ensures s'.o2 >= s.o2 + SumO2(s.plants) - 0.1
    ensures s'.co2 > 50.0 ==> s'.co2 == s.co2 - SumCo2(s.plants) + 0.1
    ensures s'.o2 > 50.0 ==> s'.o2 == s.o2 + SumO2(s.plants) - 0.1
    ensures s'.world == s.world && s'.airWater == s.airWater
    ensures |s'.plants| == |s.plants|
    ensures forall i :: 0 <= i < |s.plants| ==>
              s'.plants[i] == s.plants[i].(co2Absorbed := 0.0, o2Produced := 0.0)
  {
    var absorbed := SumCo2(s.plants);
    var produced := SumO2(s.plants);
    s.(plants := ResetCounters(s.plants),
       co2 := Max(50.0, s.co2 - absorbed + 0.1),
       o2 := Max(50.0, s.o2 + produced - 0.1))
  }

  // ---------------------------------------------------------------------
  // One tick
  // ---------------------------------------------------------------------

  /** The intermediate results of one tick, stage by stage. */
  datatype Stages = Stages(advanced: World, cycle: Cycle, pass: Pass, returned: World)

  function RunStages(s: Sim, sun: nat -> real, draws: Draws, k: nat): (t: Stages)
    requires Shaped(s.world)
    requires Daylight(sun)
    ensures Shaped(t.advanced) && Shaped(t.cycle.world) && Shaped(t.pass.world)
  {
    var advanced := AdvanceTime(s.world, sun);
    var cycle := WaterCycle(advanced, s.airWater, draws, k);
    var pass := PlantPass(s.plants, cycle.world, draws, cycle.next);
    var returned := ReturnResources(pass.world, pass.dead);
    Stages(advanced, cycle, pass, returned)
  }

  /** One simulated hour. `sun` gives the daylight level of each hour and
      the draws from cursor `k` on are the generator's output for this tick. */
  function Update(s: Sim, sun: nat -> real, draws: Draws, k: nat): (r: Step)
    requires Shaped(s.world)
    requires Daylight(sun)
    ensures SameLayout(s.world, r.sim.world)
    ensures r.sim.world.time == s.world.time + 1
    ensures r.sim.co2 >= 50.0 && r.sim.o2 >= 50.0
    // no plant that died this tick is left
    ensures AllAlive(r.sim.plants)
    ensures forall i :: 0 <= i < |r.sim.plants| ==>
              r.sim.plants[i].co2Absorbed == 0.0 && r.sim.plants[i].o2Produced == 0.0
    // each surviving plant has at most three offspring
    ensures |r.sim.plants| <= 4 * |s.plants|
    ensures r.next >= k
  {
    var t := RunStages(s, sun, draws, k);
    PlantPassSortsByHealth(s.plants, t.cycle.world, draws, t.cycle.next);
    PlantPassOffspringFresh(s.plants, t.cycle.world, draws, t.cycle.next);
    var s4 := Sim(t.returned, t.pass.survivors + t.pass.offspring, s.co2, s.o2, t.cycle.air);
    Step(UpdateAtmosphere(s4), t.pass.next)
  }

  /** Over a tick only the dead change the resources: every cell gains
      exactly half the size of each plant that died on it. */
  lemma UpdateReturnsResources(s: Sim, sun: nat -> real, draws: Draws, k: nat)
    requires Shaped(s.world) && Daylight(sun)
    ensures var t := RunStages(s, sun, draws, k);
            var w' := Update(s, sun, draws, k).sim.world;
            forall y, x :: 0 <= y < s.world.height && 0 <= x < s.world.width ==>
              w'.grid[y][x].resources == s.world.grid[y][x].resources + Deposit(t.pass.dead, x, y)
  {
    var t := RunStages(s, sun, draws, k);
    assert Update(s, sun, draws, k).sim.world == t.returned;
    OnlySoilWaterChain(t.advanced, t.cycle.world, t.pass.world);
  }

  /** The atmosphere pass over survivors followed by fresh offspring:
      every counter is cleared, the offspring stay fresh, and only the
      survivors' exchange moves the gas levels. */
  lemma AtmosphereAfterPass(s: Sim, survivors: seq<Plant>, offspring: seq<Plant>)
    requires s.plants == survivors + offspring
    requires forall i :: 0 <= i < |offspring| ==> Fresh(offspring[i])
    ensures var r := UpdateAtmosphere(s);
            && |r.plants| == |survivors| + |offspring|
            && (forall i :: 0 <= i < |survivors| ==>
                  r.plants[i] == survivors[i].(co2Absorbed := 0.0, o2Produced := 0.0))
            && (forall j :: |survivors| <= j < |r.plants| ==> Fresh(r.plants[j]))
            && r.co2 == Max(50.0, s.co2 - SumCo2(survivors) + 0.1)
            && r.o2 == Max(50.0, s.o2 + SumO2(survivors) - 0.1)
  {
    SumsOfFresh(offspring);
    SumsAppend(survivors, offspring);
    forall j | |survivors| <= j < |s.plants|
      ensures Fresh(s.plants[j])
    {
      assert s.plants[j] == offspring[j - |survivors|];
    }
  }

  /** The plant list after a tick is the survivors, in their original
      order, followed by the offspring, which have not grown. */
  lemma UpdateListsSurvivorsThenOffspring(s: Sim, sun: nat -> real, draws: Draws, k: nat)
    requires Shaped(s.world) && Daylight(sun)
    ensures var t := RunStages(s, sun, draws, k);
            var r := Update(s, sun, draws, k).sim;
            && |r.plants| == |t.pass.survivors| + |t.pass.offspring|
            && (forall i :: 0 <= i < |t.pass.survivors| ==>
                  r.plants[i] == t.pass.survivors[i].(co2Absorbed := 0.0, o2Produced := 0.0))
            && (forall j :: |t.pass.survivors| <= j < |r.plants| ==> Fresh(r.plants[j]))
            && Subsequence(Positions(t.pass.survivors), Positions(s.plants))
  {
    var t := RunStages(s, sun, draws, k);
    PlantPassOffspringFresh(s.plants, t.cycle.world, draws, t.cycle.next);
    PlantPassKeepsOrder(s.plants, t.cycle.world, draws, t.cycle.next);
    var s4 := Sim(t.returned, t.pass.survivors + t.pass.offspring, s.co2, s.o2, t.cycle.air);
    assert forall i :: 0 <= i < |t.pass.offspring| ==> Fresh(t.pass.offspring[i]);
    AtmosphereAfterPass(s4, t.pass.survivors, t.pass.offspring);
    assert Update(s, sun, draws, k).sim == UpdateAtmosphere(s4);
  }

  // ---------------------------------------------------------------------
  // Statistics
  // ---------------------------------------------------------------------

  datatype Stats = Stats(day: nat, hour: nat, plantCount: nat, co2Level: real, o2Level: real,
                         waterInAtmosphere: real)

  /** A read-only snapshot of the simulation. */
  function GetStats(s: Sim): (st: Stats)
    ensures st.plantCount == |s.plants|
    ensures st.day == s.world.day && st.hour == s.world.hour
    ensures st.co2Level == s.co2 && st.o2Level == s.o2 && st.waterInAtmosphere == s.airWater
  {
    Stats(s.world.day, s.world.hour, |s.plants|, s.co2, s.o2, s.airWater)
  }

  /** Right after construction the statistics read day 0, hour 0, at most
      20 plants, CO2 and O2 at 100 and no atmospheric water. */
  lemma NewSimStats(width: nat, height: nat, draws: Draws, k: nat)
    requires width >= 1 && height >= 1
    ensures var st := GetStats(NewSim(width, height, draws, k).sim);
            && st.day == 0 && st.hour == 0 && st.plantCount <= SeedCount
            && st.co2Level == 100.0 && st.o2Level == 100.0 && st.waterInAtmosphere == 0.0
  {
  }
}

=== FILE: world.dfy ===
/** The grid world: a dense `height` x `width` array of cells, each soil or
    water, with an hour/day clock. A central circular lake is carved into
    the soil at construction. */
module Grid {
  import opened Common

  datatype CellKind = Soil | Water

  /** One grid position's environment. The source's inert `temperature`
      entry is not carried. */
  datatype Cell = Cell(kind: CellKind, light: real, water: real, resources: real)

  /** `grid[y][x]` is the cell at column `x` of row `y`. */
  datatype World = World(width: nat, height: nat, grid: seq<seq<Cell>>,
                         time: nat, hour: nat, day: nat)

  /** The grid has `height` rows of `width` cells each. */
  predicate Shaped(w: World)
  {
    && |w.grid| == w.height
    && forall y :: 0 <= y < |w.grid| ==> |w.grid[y]| == w.width
  }

  predicate InBounds(w: World, x: int, y: int)
  {
    0 <= x < w.width && 0 <= y < w.height
  }

  /** The clock counts hours since construction: `time` is `day` whole
      days plus `hour` hours, with the hour below 24. */
  predicate ClockConsistent(w: World)
  {
    w.time == 24 * w.day + w.hour && w.hour < 24
  }

  /** A consistent clock reads the hour of the day and the number of
      completed days off the tick counter. */
  lemma ClockReadsTime(w: World)
    requires ClockConsistent(w)
    ensures w.hour == w.time % 24 && w.day == w.time / 24
  {
  }

  /** Two worlds of the same shape whose cells have the same kind everywhere. */
  predicate SameLayout(w: World, w': World)
  {
    && Shaped(w) && Shaped(w')
    && w'.width == w.width && w'.height == w.height
    && forall y, x :: 0 <= y < w.height && 0 <= x < w.width ==>
         w'.grid[y][x].kind == w.grid[y][x].kind
  }

  /** Soil moisture lies in [0, 1]. */
  predicate SoilWaterOk(c: Cell)
  {
    c.kind == Soil ==> 0.0 <= c.water <= 1.0
  }

  predicate SoilWaterBounded(w: World)
    requires Shaped(w)
  {
    forall y, x :: 0 <= y < w.height && 0 <= x < w.width ==> SoilWaterOk(w.grid[y][x])
  }

  /** `c'` is `c` with at most its water level changed, and only if it is soil. */
  predicate SoilWaterOnly(c: Cell, c': Cell)
  {
    && c'.kind == c.kind && c'.light == c.light && c'.resources == c.resources
    && (c.kind == Water ==> c'.water == c.water)
  }

  /** `w'` is `w` with at most the water levels of soil cells changed. */
  predicate OnlySoilWaterChanged(w: World, w': World)
  {
    && SameLayout(w, w')
    && w'.time == w.time && w'.hour == w.hour && w'.day == w.day
    && forall y, x :: 0 <= y < w.height && 0 <= x < w.width ==>
         SoilWaterOnly(w.grid[y][x], w'.grid[y][x])
  }

  /** Changing only soil moisture, twice, changes only soil moisture. */
  lemma OnlySoilWaterChain(w: World, w': World, w'': World)
    requires OnlySoilWaterChanged(w, w') && OnlySoilWaterChanged(w', w'')
    ensures OnlySoilWaterChanged(w, w'')
  {
  }

  // ---------------------------------------------------------------------
  // Construction
  // ---------------------------------------------------------------------

  /** The cell every position starts as, before the lake is carved. */
  const DefaultCell := Cell(Soil, 0.0, 0.7, 1.0)

  /** The lake cell: the default cell turned into water with full water. */
  const LakeCell := Cell(Water, 0.0, 1.0, 1.0)

  /** Whether both sides are at least 8, so that the lake radius
      `min(width, height) // 8` is positive. */
  predicate HasLake(width: nat, height: nat)
  {
    width >= 8 && height >= 8
  }

  function LakeRadius(width: nat, height: nat): (r: nat)
    ensures r <= width / 8 && r <= height / 8
    ensures r == width / 8 || r == height / 8
    ensures r > 0 <==> HasLake(width, height)
  {
    (if width < height then width else height) / 8
  }

  /** Whether `(x, y)` lies strictly inside the lake disc. The source tests
      `sqrt(d2) < r` for an integer `d2 >= 0` and an integer `r >= 0`,
      which holds exactly when `d2 < r * r`. */
  predicate InLake(width: nat, height: nat, x: int, y: int)
  {
    Square(x - width / 2) + Square(y - height / 2) < Square(LakeRadius(width, height))
  }

  function Square(n: int): (r: nat)
    ensures n != 0 ==> r > 0
  {
    if n < 0 then (-n) * (-n) else n * n
  }

  /** Every cell inside the lake disc becomes water with water level 1.0;
      every other cell is left as it is. */
  function AddWaterBodies(w: World): (w': World)
    requires Shaped(w)
    ensures Shaped(w') && w'.width == w.width && w'.height == w.height
    ensures w'.time == w.time && w'.hour == w.hour && w'.day == w.day
    ensures forall y, x :: 0 <= y < w.height && 0 <= x < w.width ==>
              w'.grid[y][x] == (if InLake(w.width, w.height, x, y)
                                then w.grid[y][x].(kind := Water, water := 1.0)
                                else w.grid[y][x])
  {
    w.(grid := seq(w.height, y requires 0 <= y < w.height =>
                 seq(w.width, x requires 0 <= x < w.width =>
                   if InLake(w.width, w.height, x, y)
                   then w.grid[y][x].(kind := Water, water := 1.0)
                   else w.grid[y][x])))
  }

  /** A fresh world: soil everywhere (water 0.7, light 0, resources 1.0)
      except the central lake, and the clock at zero. */
  function NewWorld(width: nat, height: nat): (w: World)
    ensures Shaped(w) && w.width == width && w.height == height
    ensures w.time == 0 && w.hour == 0 && w.day == 0
    ensures ClockConsistent(w)
    ensures forall y, x :: 0 <= y < height && 0 <= x < width ==>
              w.grid[y][x] == (if InLake(width, height, x, y) then LakeCell else DefaultCell)
    ensures !HasLake(width, height) ==>
              forall y, x :: 0 <= y < height && 0 <= x < width ==> w.grid[y][x] == DefaultCell
    ensures HasLake(width, height) ==> w.grid[height / 2][width / 2] == LakeCell
  {
    var blank := World(width, height, seq(height, _ => seq(width, _ => DefaultCell)), 0, 0, 0);
    AddWaterBodies(blank)
  }

  // ---------------------------------------------------------------------
  // Lookup and update
  // ---------------------------------------------------------------------

  /** The cell at `(x, y)`, or `None` outside the grid. */
  function GetCell(w: World, x: int, y: int): (r: Option<Cell>)
    requires Shaped(w)
    ensures r.Some? <==> InBounds(w, x, y)
    ensures r.Some? ==> r.value == w.grid[y][x]
  {
    if 0 <= x < w.width && 0 <= y < w.height then Some(w.grid[y][x]) else None
  }

  /** The world with the cell at `(x, y)` replaced by `c`; nothing else changes. */
  function SetCell(w: World, x: int, y: int, c: Cell): (w': World)
    requires Shaped(w) && InBounds(w, x, y)
    ensures Shaped(w') && w'.width == w.width && w'.height == w.height
    ensures w'.time == w.time && w'.hour == w.hour && w'.day == w.day
    ensures w'.grid[y][x] == c
    ensures forall j, i :: 0 <= j < w.height && 0 <= i < w.width && (i, j) != (x, y) ==>
              w'.grid[j][i] == w.grid[j][i]
  {
    w.(grid := w.grid[y := w.grid[y][x := c]])
  }

  // ---------------------------------------------------------------------
  // Light and time
  // ---------------------------------------------------------------------

  /** Every cell receives the same light `level`; kind, water and resources
      are untouched. `level` stands for the source's `max(0, sin(...))`,
      whose value lies in [0, 1]. */
  function UpdateLighting(w: World, level: real): (w': World)
    requires Shaped(w)
    requires 0.0 <= level <= 1.0
    ensures Shaped(w') && w'.width == w.width && w'.height == w.height
    ensures w'.time == w.time && w'.hour == w.hour && w'.day == w.day
    ensures forall y, x :: 0 <= y < w.height && 0 <= x < w.width ==>
              && w'.grid[y][x].light == level
              && w'.grid[y][x].kind == w.grid[y][x].kind
              && w'.grid[y][x].water == w.grid[y][x].water
              && w'.grid[y][x].resources == w.grid[y][x].resources
  {
    w.(grid := seq(w.height, y requires 0 <= y < w.height =>
                 seq(w.width, x requires 0 <= x < w.width => w.grid[y][x].(light := level))))
  }

  /** An admissible daylight curve: the light level for each hour 0 to 23
      of the day. It stands for `max(0, sin(2 * pi * hour / 24))`: a level in
      [0, 1] that is zero at midnight, where the sine is zero. */
  predicate Daylight(sun: nat -> real)
  {
    && (forall h: nat :: h < 24 ==> 0.0 <= sun(h) <= 1.0)
    && sun(0) == 0.0
  }

  /** One hour passes: the tick counter grows by one, the hour wraps at 24,
      the day advances exactly when the hour wraps, and every cell gets the
      light of the new hour. */
  function AdvanceTime(w: World, sun: nat -> real): (w': World)
    requires Shaped(w)
    requires Daylight(sun)
    ensures SameLayout(w, w')
    ensures w'.time == w.time + 1
    ensures w'.hour == (w.hour + 1) % 24
    ensures w'.day >= w.day
    ensures w'.day == w.day + 1 <==> w'.hour == 0
    ensures w'.day == w.day <==> w'.hour != 0
    ensures forall y, x :: 0 <= y < w.height && 0 <= x < w.width ==>
              && w'.grid[y][x].light == sun(w'.hour)
              && w'.grid[y][x].water == w.grid[y][x].water
              && w'.grid[y][x].resources == w.grid[y][x].resources
  {
    var hour := (w.hour + 1) % 24;
    var day := if hour == 0 then w.day + 1 else w.day;
    UpdateLighting(w.(time := w.time + 1, hour := hour, day := day), sun(hour))
  }

  /** The clock relation survives one call of `AdvanceTime`. */
  lemma AdvanceKeepsClock(w: World, sun: nat -> real)
    requires Shaped(w) && Daylight(sun)
    requires ClockConsistent(w)
    ensures ClockConsistent(AdvanceTime(w, sun))
  {
  }

  /** `AdvanceTime` applied `n` times. */
  function AdvanceAll(w: World, sun: nat -> real, n: nat): (w': World)
    requires Shaped(w) && Daylight(sun)
    ensures SameLayout(w, w')
    ensures w'.time == w.time + n
    decreases n
  {
    if n == 0 then w
    else AdvanceAll(AdvanceTime(w, sun), sun, n - 1)
  }

  /** After any number of hours from a consistent clock, the clock is still
      consistent. */
  lemma {:induction false} AdvanceAllKeepsClock(w: World, sun: nat -> real, n: nat)
    requires Shaped(w) && Daylight(sun)
    requires ClockConsistent(w)
    ensures ClockConsistent(AdvanceAll(w, sun, n))
    decreases n
  {
    if n > 0 {
      AdvanceKeepsClock(w, sun);
      AdvanceAllKeepsClock(AdvanceTime(w, sun), sun, n - 1);
    }
  }

  /** From a fresh world, after `n` hours the hour is `n % 24` and the day
      is `n / 24`. */
  lemma ClockFromFresh(width: nat, height: nat, sun: nat -> real, n: nat)
    requires Daylight(sun)
    ensures var w := AdvanceAll(NewWorld(width, height), sun, n);
            w.time == n && w.hour == n % 24 && w.day == n / 24
  {
    var w := AdvanceAll(NewWorld(width, height), sun, n);
    AdvanceAllKeepsClock(NewWorld(width, height), sun, n);
    ClockReadsTime(w);
  }
}
